=== FILE: README.md ===
# collaborative-canvas, modelled in Dafny

A shared drawing canvas: browser clients draw freehand strokes, and a
WebSocket relay server fans drawing events out to the other clients in the
same named room. This project models the non-presentational logic of that
system as pure transition functions over immutable data, and proves what
the code promises about it:

- `DrawingState` (server/drawing-state.js) is the committed-paths list
  and its redo stack. It supports add, undo, redo and clear. It is generic
  in the entry type, because the client keeps the same pair over entries
  that can be `undefined`.
- `Canvas` (client/canvas.js) is the client's gesture state (`drawing`,
  `currentPath`) over such a pair.
- `OrderedSets` and `Rooms` (server/rooms.js) form the room directory.
  Each room has a member `Set`, modelled as an insertion-ordered sequence
  without repetitions, and a path list. A room is created on first join
  and deleted when it becomes empty.
- `Server` (server/server.js) covers:
  - connection records `{userId, roomId, open}`;
  - the presence map and the connection counter;
  - the `broadcast` recipient filter and the `getRoomUsers` snapshot;
  - the `message` dispatch and the `close` teardown.

  Outputs are lists of (recipient, message) deliveries. A recipient whose
  `send` throws is a parameter (`failing`).
- `Connection` (client/websocket.js) is the client's connection
  controller: the `isConnected` flag, the bounded reconnect counter, the
  FIFO outbound queue and one handler slot per message type. Socket
  events, timer firings and the caller's operations are explicit inputs.
  The outside effects are listed: transmit, invoke a handler, arm the
  reconnect timer.
- `ClientApp` (client/main.js) covers:
  - the presence and cursor maps;
  - the remote-event handlers that replay strokes on the local canvas;
  - the rename and room-input validation;
  - the overridden local actions that also emit messages.

  `ready` stands for `ws.isReady()` at the moment of a call.
- `Protocol`, `Strokes`, `Text` and `Wrappers` hold the message
  vocabulary, the stroke record, the decimal rendering of the connection
  counter, JavaScript's `trim`, and `Option` (for `null`/`undefined`).

Some behaviours of the code are easy to mistake for something else. The
model keeps each of them as written:

- Relays (`draw-path`, `undo`, `redo`, `cursor-move`, `clear-canvas`) are
  broadcast with no sender exclusion, so a sender receives its own echo.
  The client drops the echo by comparing ids (`Server.RelayFanOut`,
  `ClientApp.OwnStrokeEchoIgnored`).
- A remote stroke (`addRemotePath`) does not clear the receiver's redo
  stack.
- The remote `undo` handler pushes onto the redo stack the path that is
  last after the pop (or `undefined`), not the popped one. Remote undo
  followed by remote redo therefore restores the canvas only in the case
  `ClientApp.RemoteUndoRedoRestoresIff` names.
- The connection counter never resets, so ids and display numbers are not
  reused while the counter is below 2^53 (see `Server.Connect` under Left
  out).
- A `join` for the room the sender is already in first leaves it. When the
  sender is its only member, the room closes and comes back with no paths
  (`Server.RejoinAloneClearsRoom`).
- Room names are looked up in a plain object, so a name such as
  `constructor` makes `joinRoom` throw (see Findings).
- There is no server-side heartbeat sweep, and there is no `rename-user`
  or `drawing-start` relay. Those message types fall through the
  dispatch.
- `close()` on the client sets no flag, so the close event it causes
  still goes through the reconnect logic (`Connection.CloseStillReconnects`).
- A new connection is given room `main`, but it is not entered in the
  room directory until it sends `join`.

## Model

| member | source | states |
|---|---|---|
| Text.DecimalRoundTrip | server/server.js:41-43 | parsing the decimal rendering of the counter gives the counter back, so the rendering loses nothing |
| Text.Trim | client/main.js:123 | the trimmed string neither starts nor ends with whitespace (the ECMAScript WhiteSpace and LineTerminator characters), and it is empty exactly when the input is all whitespace |
| Text.TrimUnique | client/main.js:123 | whitespace, then a core with non-whitespace ends, then whitespace, trims to exactly that core; this characterises trim independently of how it is computed |
| Text.TrimIdempotent | client/main.js:189 | trimming twice is trimming once |
| OrderedSets.Add | server/rooms.js:7 | `Set.add`: the members afterwards are the old ones plus the new one; an existing member changes nothing; a new one goes last; no member is repeated |
| OrderedSets.Delete | server/rooms.js:13 | `Set.delete`: the members afterwards are the old ones minus the deleted one; an absent one changes nothing; the size drops by one when present |
| OrderedSets.DeleteUndoesAdd | server/rooms.js:7-13 | deleting a member that was just added gives the original set back, in order |
| Rooms.JoinRoom | server/rooms.js:3-9 | an absent room is created holding only the joiner and no paths; afterwards the joiner is a member; an existing room keeps its paths; every other room keeps its entry and its members; the directory stays well formed |
| Rooms.JoinRoomAsWritten | server/rooms.js:3-9 | over a plain object, a join throws exactly when the room name is an inherited `Object.prototype` key that is not a room; every other join is `JoinRoom` |
| Rooms.PrototypeRoomNameThrows | server/rooms.js:3-9 | joining room `constructor` throws as written, while the repaired directory lists the joiner under it |
| Rooms.LeaveRoom | server/rooms.js:11-20 | an unknown room changes nothing; the leaver is removed; the room entry is deleted exactly when the leaver was its only member, so every listed room stays non-empty; other rooms are untouched |
| Rooms.GetRoomUsers | server/rooms.js:22-25 | an unknown room gives `[]`; otherwise exactly the members, without repetition |
| Rooms.AddPathToRoom | server/rooms.js:27-30 | an unknown room is neither changed nor created; other rooms and the member set are untouched |
| Rooms.GetRoomPaths | server/rooms.js:32-35 | an unknown room gives `[]` |
| Rooms.PathsAfterAdd | server/rooms.js:27-35 | after `addPathToRoom` the room's paths end with the new path; an unknown room still reports no paths |
| Rooms.JoinCreatesRoom | server/rooms.js:3-9 | a first join lists exactly the joiner and no paths |
| Rooms.JoinIdempotent | server/rooms.js:7 | a second join by the same user changes nothing |
| Rooms.JoinThenLeaveRestores | server/rooms.js:3-20 | joining a room one was not in and leaving it again restores the directory exactly, including deleting a room the join created |
| DrawingState.AddPath | server/drawing-state.js:6-9 | the path becomes the last committed path after the old ones, and the redo stack is emptied |
| DrawingState.Undo | server/drawing-state.js:11-16 | on no paths it returns `null` and changes nothing; otherwise it returns the last path, removes it, and pushes it on top of the redo stack; the combined count and the undo/redo timeline are unchanged |
| DrawingState.Redo | server/drawing-state.js:18-23 | on an empty redo stack it returns `null` and changes nothing; otherwise it moves the top back to the end of the paths and returns it; the combined count and the timeline are unchanged |
| DrawingState.GetPaths | server/drawing-state.js:25-27 | the committed list as it is, unchanged: the part of the undo/redo timeline that is not undone |
| DrawingState.Clear | server/drawing-state.js:29-32 | afterwards nothing is committed or undone: `getPaths` is empty and undo and redo both return `null` |
| DrawingState.UndoRedoRoundTrip | server/drawing-state.js:11-23 | undo then redo restores both lists exactly and returns the same path |
| DrawingState.RedoUndoRoundTrip | server/drawing-state.js:11-23 | redo then undo restores both lists exactly |
| DrawingState.UndoAfterAddPath | server/drawing-state.js:6-16 | undoing a just-added path returns it and leaves only it on the redo stack |
| DrawingState.GetPathsAfterAddPath | server/drawing-state.js:6-27 | `getPaths` after `addPath` is the old list with the new path appended |
| DrawingState.RunKeepsTimeline | server/drawing-state.js:11-23 | no run of undos and redos creates or loses a path: the timeline and the combined count are preserved |
| Canvas.StartDraw | client/canvas.js:90-103 | with a position, a gesture starts whose stroke has exactly that one point and the toolbar's pen; without one nothing changes; committed lists untouched |
| Canvas.Draw | client/canvas.js:105-113 | appends exactly the new point while a gesture is in progress; otherwise nothing changes |
| Canvas.EndDraw | client/canvas.js:115-124 | outside a gesture nothing changes; otherwise the gesture ends, and a stroke with at least one point becomes the last committed path and clears redo |
| Canvas.Undo | client/canvas.js:168-173 | no paths: no-op; otherwise the last path moves to the top of the redo stack |
| Canvas.Redo | client/canvas.js:175-180 | empty redo stack: no-op; otherwise the top moves back to the end of the paths |
| Canvas.ClearCanvas | client/canvas.js:182-187 | both lists are emptied; a gesture in progress is untouched |
| Canvas.AddRemotePath | client/canvas.js:189-195 | only strokes with at least one point are appended; the redo stack is never touched |
| Canvas.UndoRedoRestores | client/canvas.js:168-180 | local undo then redo restores the canvas exactly |
| Canvas.DrawAllAppends | client/canvas.js:105-113 | the points of a gesture are the pointer positions in arrival order; moving never touches the committed lists |
| Canvas.GestureCommitsStroke | client/canvas.js:90-124 | press, moves and release commit exactly one stroke holding those points in order, as the last path, with redo emptied |
| Server.UserIdInjective | server/server.js:41 | different counter values give different `user_<n>` ids |
| Server.Broadcast | server/server.js:16-28 | a connection receives the message exactly when it is OPEN, in the target room, not the excluded user, and its send does not throw; a throwing send does not stop the others; no recipient gets it twice |
| Server.GetRoomUsers | server/server.js:30-38 | the snapshot holds exactly the presence records of the users with a connection in the room, whether OPEN or not |
| Server.Connect | server/server.js:40-45 | the counter goes up by one; the new connection is `user_<n>` / `User <n>`, OPEN, in room `main`; its id was held by no existing connection; the server invariant is kept |
| Server.OneRoomPerUser | server/server.js:59-64 | under the invariant no user is listed in two rooms |
| Server.MoveToRoom | server/server.js:60-64 | the connection's room becomes the new one, and the user is a directory member of exactly that room; every other user keeps exactly their memberships; no room appears but the new one and none closes but the old one; every surviving room keeps its paths, including a re-joined room with other members still in it, and only a room its lone member re-joins comes back empty; the invariant is kept |
| Server.RejoinWithOthersKeepsPaths | server/rooms.js:11-20 | re-joining one's own room while another member is still in it keeps the room's paths |
| Server.RejoinAloneClearsRoom | server/server.js:60-64 | a lone member re-joining their own room finds it recreated holding only them and no paths |
| Server.HandleJoin | server/server.js:59-82 | a truthy `roomId` moves the sender, leaving every other user's memberships and every surviving room's paths as they were; a falsy one changes nothing; `init` with the room snapshot goes to the sender, then `user-joined` to the whole room including the sender, unless the `init` send throws |
| Server.HandleMessage | server/server.js:49-123 | unparseable and unknown messages produce nothing; `ping` gives one `pong` to the sender only; the five relay types go to the sender's room, sender included, under the server-assigned id; only `join` changes state; the invariant is kept |
| Server.HandleClose | server/server.js:126-131 | the connection, its presence record and its room membership are removed; `user-left` goes to the rest of its room and never to the closed connection |
| Server.SocketClosing | server/server.js:18 | a connection whose socket is closing stays listed but is not OPEN; nothing else changes |
| Server.ClaimsIgnored | server/server.js:92-119 | the `userId`/`roomId` a client writes in a message has no effect on what the server does |
| Server.RelayFanOut | server/server.js:92-119 | a relayed message reaches connection j exactly when j is OPEN, in the sender's room and its send does not throw; the sender gets its own echo |
| Server.SecondJoinLeavesFirstRoom | server/server.js:59-64 | after joining r1 and then r2, the user is listed under r2 and no longer under r1 |
| Server.CloseForgetsUser | server/server.js:126-131 | after close the user is in no room and has no presence record, and every delivery is `user-left` to someone else |
| Connection.OrDefault | client/websocket.js:8-9 | an absent or zero option falls back to the default; any other value is kept |
| Connection.Create | client/websocket.js:2-15 | a new controller has no handlers, an empty queue, is not connected, is not pinging, holds the options or 5 / 3000, and satisfies the counter invariant; its socket is CONNECTING with nothing else done, or, when construction throws, there is no socket and one reconnect is scheduled (the counter at 1) unless the maximum is 0 or less |
| Connection.Connect | client/websocket.js:17-25 | a constructed socket starts CONNECTING; a throwing construction runs `handleReconnect` and keeps the old socket |
| Connection.HandleReconnect | client/websocket.js:81-96 | at or past the maximum nothing happens; otherwise the counter goes up by one and one reconnect is scheduled with the configured delay; the counter never passes the maximum |
| Connection.IsReady | client/websocket.js:112-114 | ready exactly when the connected flag is set and the socket is OPEN |
| Connection.Send | client/websocket.js:102-110 | when connected and OPEN the message is transmitted at once; otherwise it goes to the tail of the queue and nothing is transmitted |
| Connection.On | client/websocket.js:98-100 | the slot for the type holds the new handler, replacing any earlier one; the other slots and the rest of the controller are unchanged |
| Connection.Close | client/websocket.js:116-121 | stops pinging; an OPEN or CONNECTING socket starts closing, a CLOSING or CLOSED socket or no socket is left as it is; no flag is set, and every other field (queue, handlers, counter, maximum, delay, connected flag) is unchanged |
| Connection.OnSocketEvent | client/websocket.js:27-79 | open: connected, counter reset, queue transmitted front first and emptied before the `open` handler; message: unparseable text and `pong` reach no handler, any other type at most its one handler; close: not connected, ping stopped, socket CLOSED, queue kept, the counter up by one unless at the maximum, the `close` handler, then `handleReconnect`; error: only the `error` handler, `isConnected` unchanged |
| Connection.OnThenMessageInvokes | client/websocket.js:44-60 | after `on(kind, h)`, a message of that type invokes exactly `h` with the message, even after other types are registered; `pong` reaches no handler even when one is registered for it |
| Connection.OnPingTimer | client/websocket.js:123-130 | a ping is transmitted exactly when the interval is armed and the controller is ready |
| Connection.Step | client/websocket.js:81-96 | every input keeps the reconnect counter between 0 and the maximum |
| Connection.ReconnectsBounded | client/websocket.js:62-96 | without a successful open, any run of inputs schedules at most `maxReconnectAttempts` reconnects in all, counting those already made |
| Connection.QueuedSendsGoFirst | client/websocket.js:28-41 | messages sent while not ready go out in the order they were sent as soon as the socket opens, and before anything sent afterwards |
| Connection.CloseStillReconnects | client/websocket.js:116-121 | the close event caused by `close()` still schedules a reconnect while attempts remain |
| ClientApp.InitialRoom | client/main.js:4-5 | the start-up room is the query parameter, else the stored room, else `main`, each only when non-empty; it is never empty |
| ClientApp.CursorFor | client/main.js:331-338 | a remote cursor takes the mover's colour and name when known and non-empty, else black and the bare id |
| ClientApp.RemoteUndo | client/main.js:306-313 | the paths shrink exactly as a local undo would; the redo stack grows by one entry, which is the new last path or `undefined`, not the popped one |
| ClientApp.RemoteRedo | client/main.js:315-322 | the remote redo handler's list surgery is the canvas's own redo |
| ClientApp.OnClearCanvas | client/main.js:324-329 | a clear from another client empties both lists and emits nothing; the client's own echo changes nothing |
| ClientApp.Receive | client/main.js:248-341 | `init` adopts the id and snapshot and changes nothing else; `user-joined` records the entry; `user-left` drops the id from users and cursors and changes nothing else; `user-renamed` renames only a known id; draw-path/undo/redo/clear-canvas/cursor-move echoing the local id are ignored; others replay on the canvas, or set exactly the mover's cursor, or clear both lists while keeping the gesture and all else |
| ClientApp.LocalEndDraw | client/main.js:423-441 | ends the gesture exactly as the canvas's own `endDraw`; emits `drawing-start` then `draw-path` with the committed stroke only when a stroke was committed and the client can send |
| ClientApp.LocalAction | client/main.js:443-465 | undo, redo and clear perform the canvas operation and emit exactly one message of the same type when the client can send, even when there was nothing to undo or redo, and none otherwise |
| ClientApp.LocalActionAsWritten | client/main.js:413-465 | the same lists change; an undo with paths, a redo with a non-empty redo stack and every clear reach `redraw` and emit nothing; an undo with no paths or a redo with an empty stack emits exactly what the repaired action emits |
| ClientApp.UndoNeverAnnouncedAsWritten | client/main.js:418-449 | as written, a ready client's undo of a stroke is never sent, while the repaired action sends it |
| ClientApp.OnClearCanvasAsWritten | client/main.js:324-329 | with redraw repaired, a remote clear from another client runs the overridden `clearCanvas`, which re-emits `clear-canvas` when the client can send |
| ClientApp.ClearCanvasBounces | client/main.js:324-329 | with that handler, two ready clients pass one clear back and forth forever: the second relay returns the first client to the same state and the same message |
| ClientApp.ClearCanvasSettles | client/main.js:324-329 | with the repaired handler, one clear leaves both canvases empty, the sender ignores its echo, and the exchange ends |
| ClientApp.SaveName | client/main.js:122-145 | a trimmed name outside 3..20 characters changes nothing and sends nothing; otherwise the client's own known entry takes the name, other entries keep theirs, and `rename-user` is sent only when the client can send |
| ClientApp.SentNameIsTrimmed | client/main.js:122-135 | every name a rename sends has 3 to 20 characters and no whitespace at either end |
| ClientApp.ResolveRoomInput | client/main.js:189 | the room typed is trimmed, and `main` when nothing is left; the result is never empty and has no whitespace at its ends |
| ClientApp.BlankRoomInputIsMain | client/main.js:189 | the input is empty or all whitespace exactly when it resolves to `main` through an empty trim |
| ClientApp.LocalCursorMove | client/main.js:362-364 | the pointer position is sent as `cursor-move` exactly when the client can send |
| ClientApp.CursorReplicates | client/main.js:331-364 | a pointer move one client sends is relayed under its connection id to every open, non-failing connection in its room, and any other client draws the sender's cursor at that position and changes nothing else |
| ClientApp.ChangeRoomAsWritten | client/main.js:212-220 | as written, a room change records the new room and empties both canvas lists, but keeps the presence and cursor maps and never navigates |
| ClientApp.ChangeRoom | client/main.js:212-220 | as intended, the page reloads into the new room (`main` for an empty name) with no id, presence, cursors or strokes carried over |
| ClientApp.ChangeRoomStrandsPage | client/main.js:212-220 | for a new non-empty room, the as-written change keeps the old presence and cursors and does not navigate, while the intended one lands in the new room with empty presence |
| ClientApp.OfflineEditsNeverSent | client/main.js:423-465 | nothing drawn, undone, redone, cleared, renamed or pointed at while the connection is not ready is sent or queued |
| ClientApp.RemoteUndoRedoRestoresIff | client/main.js:306-322 | remote undo then remote redo restores the canvas exactly when the popped path equals its predecessor (or is `undefined` for a lone path) |
| ClientApp.RemoteUndoRedoLosesStroke | client/main.js:306-322 | on a canvas [s1, s2], another client's undo and redo leave [s1, s1]: s2 is lost |
| ClientApp.OwnStrokeEchoIgnored | client/main.js:300-304 | a committed stroke comes back from the server under the client's own id, and the echo leaves the client unchanged |
| ClientApp.StrokeReplicates | client/main.js:423-441 | a stroke one client commits and sends is relayed under its connection id to every open, non-failing connection in its room, and any other client appends that same entry as its last path, keeping its redo stack |
| ClientApp.PresenceRoundTrip | client/main.js:255-291 | an unlisted user who joins and then leaves leaves no trace in the presence or cursor maps, even after a rename or a cursor move in between; a rename after the join is what the presence map shows |
| ClientApp.OpenJoinsCurrentRoom | client/main.js:234-237 | on open, `join` for the current room goes out right after the flushed queue, and the server moves the connection into that room |

## Left out

- Rendering: `drawPath`, the body of `redraw`, `drawCursors`, FPS tracking and the canvas context. Points are plain integer pairs, and the float scaling in `getPos` is not modelled.
- DOM, modal, notification and profile-badge code. The `drawing-start` handler and `showDrawingActivity` change only the display, so `Receive` leaves the state unchanged for them.
- Local storage: `saveRoomState`, the saved-state load at start-up, the periodic save and the stored room id. These are external I/O. `InitialRoom` takes the stored value as a parameter.
- The room dialog and the quick-room buttons, apart from the input rule (`ResolveRoomInput`) and `changeRoom` itself (see Findings). As written, `changeRoom` does not reach the reload at client/main.js:219, and the click handlers never reach the lines that hide the dialog (client/main.js:193 and 208). The stored room and the room label are external I/O and display.
- Clocks and randomness: stroke timestamps and the new user's colour are parameters, and latency is not tracked. Cursor throttling is left out; `LocalCursorMove` is the listener after the throttle has let the event through. Timer firings (reconnect delay, ping interval) are explicit inputs, and their periods are not modelled.
- Express/HTTP static serving, `listen`, SIGTERM handling and the server's `error` listener (it only logs).
- JSON serialisation. Messages are datatypes, and the controller's queue holds requests rather than strings. A frame that does not parse is `Garbled`. Fields of the wrong JavaScript type (a non-string truthy `roomId`, a missing `path`) are not modelled.
- Server.HandleMessage: a frame that parses to `null` is not modelled. Reading `msg.type` on it throws outside any `try` (server/server.js:58), so the exception escapes the listener; `Frame` has only unparseable text and parsed messages.
- Exceptions in client message handlers after their state changes (for example a notification for a `user-joined` without a user). The controller catches what a message handler throws (client/websocket.js:45-59), and the model keeps the state changes that precede the throw. The `open`, `close` and `error` handlers run outside that `try`; see `Connection.OnSocketEvent` below.
- ClientApp.LocalEndDraw: assumes `saveRoomState` returns. It writes local storage, which can throw (a full quota, for instance). The save at client/main.js:432 comes before the sends and before `currentPath` is cleared, so a throwing save would send nothing and leave the stroke as the current path.
- ClientApp.LocalAction: assumes `saveRoomState` returns. The saves at client/main.js:445, 453 and 461 come before `ws.send`, so a throwing save would change the lists and send nothing.
- Connection.OnSocketEvent: assumes the `close` handler returns. main.js's handler saves to local storage (client/main.js:245); if that throws, the exception escapes the listener at client/websocket.js:68 and `handleReconnect` at line 70 never runs.
- Server.HandleJoin: uses the repaired room directory (`Rooms.JoinRoom`). As written, for a room name that is an inherited `Object.prototype` key, server/server.js:61-63 removes the sender from its old room and records the new name on the connection, then `joinRoom` throws out of the listener, so neither `init` nor `user-joined` is sent. With no handler for uncaught exceptions, that most likely ends the server process (see Findings).
- Server.MoveToRoom: uses the repaired directory; for an inherited-key room name the source leaves the old room and records the name, then throws before the user is listed anywhere.
- Server.HandleMessage: the `join` branch is `Server.HandleJoin`, with the same repaired directory for inherited-key room names.
- Server.Connect: the counter is an unbounded integer. A JavaScript number stops growing at 2^53, so past that point `++userCount` would repeat ids; the model does not reach that limit.
- Rooms.JoinRoom: models the repaired directory, keyed by name alone. As written, a name that is an inherited `Object.prototype` key throws at server/rooms.js:7 (see Findings and `Rooms.JoinRoomAsWritten`).
- Rooms.LeaveRoom: as written, an inherited-key name that is not a room passes the test at server/rooms.js:12 and throws at line 13; the model treats it as an unknown room.
- Rooms.GetRoomUsers: as written, an inherited-key name throws at server/rooms.js:24; the model returns `[]`.
- Rooms.AddPathToRoom: as written, an inherited-key name throws at server/rooms.js:29; the model changes nothing.
- Message types that collide with `Object.prototype` keys (`toString` and the like). The controller would call the inherited function; the model's handler map holds only registered handlers.
- Sockets replaced by a reconnect: the model tracks one current socket, and events from a stale socket are not modelled.
- Connection.OnSocketEvent: `startPing` does not clear an earlier interval, so the source can run two ping intervals after two opens without a close; the model keeps one boolean.
- ClientApp.SaveName: lengths are counted in characters, not UTF-16 code units, so a name containing characters outside the Basic Multilingual Plane is measured shorter than the source measures it. With no id yet, the source looks up the key `"null"` in the users map; the model treats the entry as unknown, which agrees because no server-issued id is `"null"`.
- Rooms.GetRoomPaths: the source returns the room's live array, which callers could mutate; the model returns a value. As written, an inherited-key name returns that key's `paths` property (`undefined`) rather than `[]`.
- The server-side `DrawingState` and the directory's path list are never called by server.js. They are modelled on their own.

## Findings

| source | as written | input that shows it | evidently intended | confidence | as-written member | corrected member |
|---|---|---|---|---|---|---|
| client/main.js:418-421 | the replacement `redraw` calls `drawCursors`, which calls `redraw` again, so every redraw recurses until the stack overflows; the overridden undo/redo/clearCanvas change the lists and then throw before `ws.send`, so those edits never reach the other clients | a ready client with one committed stroke clicks undo: the stroke moves to its redo stack and no `undo` message is sent | `redraw` repaints the paths and cursors once and returns, so each local action emits its message | not executed | ClientApp.LocalActionAsWritten | ClientApp.LocalAction |
| server/rooms.js:4-7 | rooms live in a plain object, so for a name like `constructor` the test `!rooms[roomId]` sees the inherited value, no room is created, and `.users.add` throws a TypeError; server/server.js:61-63 calls it outside any `try`, so the exception escapes the message listener; the server installs no handler for uncaught exceptions (its only process listener is for SIGTERM, server/server.js:138), so the process most likely exits and every room is disconnected | a client opens `/?room=constructor`; its `open` handler sends `join` for that room | every room name is an ordinary room (a `Map` or a prototype-less object) | not executed | Rooms.JoinRoomAsWritten | Rooms.JoinRoom |
| client/main.js:212-220 | `changeRoom` calls the overridden `clearCanvas`, whose base `clearCanvas` ends in the recursive `redraw` (client/canvas.js:185, client/main.js:418-421), so it throws after emptying the lists; with redraw repaired, `cursors = {}` assigns to the constant declared at client/main.js:29 and throws a TypeError. Either way the reload at line 219 never happens: the page keeps its old presence and its connection stays in the old server room, while the room label and the stored room already name the new one | a client in `main` picks a quick-room button for another room | the page navigates to `?room=<new room>` and starts afresh there | not executed | ClientApp.ChangeRoomAsWritten | ClientApp.ChangeRoom |
| client/main.js:324-329 | once redraw returns, the `clear-canvas` handler calls the overridden `clearCanvas`, which re-emits `clear-canvas`; the server relays it back to the first client, which clears and emits again | two ready clients in one room; one clicks clear | a received clear empties the local canvas without emitting, as the handler's own-id check suggests | not executed | ClientApp.OnClearCanvasAsWritten | ClientApp.OnClearCanvas |

=== FILE: canvas.dfy ===
/** The drawing state of the client's canvas (client/canvas.js): whether a
    gesture is in progress, the stroke being drawn, and the committed-paths
    list with its redo stack. Rendering is not modelled. */
module Canvas {
  import opened Wrappers
  import opened Strokes
  import DrawingState

  /** A slot of the client's path lists. `None` is the `undefined` that a
      remote undo can push onto the redo stack (see module ClientApp); every
      slot the canvas itself fills holds a stroke. */
  type Entry = Option<Stroke>

  datatype CanvasState = CanvasState(drawing: bool, currentPath: Option<Stroke>, history: DrawingState.State<Entry>)

  function Initial(): CanvasState
  {
    CanvasState(false, None, DrawingState.Initial())
  }

  /** A gesture in progress always has a stroke to extend. */
  predicate Valid(c: CanvasState)
  {
    c.drawing ==> c.currentPath.Some?
  }

  /** `startDraw`: with a pointer position, begins a gesture whose stroke
      has exactly that one point and the toolbar's current pen. Without a
      position (a touch event with no touches) nothing changes. */
  function StartDraw(c: CanvasState, pos: Option<Point>, pen: Style, timestamp: int): (r: CanvasState)
    ensures pos.None? ==> r == c
    ensures pos.Some? ==>
      && r.drawing && r.currentPath.Some?
      && r.currentPath.value.points == [pos.value]
      && r.currentPath.value.color == pen.color
      && r.currentPath.value.width == pen.width
      && r.currentPath.value.erasing == pen.erasing
    ensures r.history == c.history
    ensures Valid(r) || r == c
  {
    match pos
    case None => c
    case Some(p) =>
      c.(drawing := true, currentPath := Some(Stroke(pen.color, pen.width, pen.erasing, [p], timestamp)))
  }

  /** `draw`: while a gesture is in progress, appends the pointer position
      to its stroke; otherwise nothing changes. */
  function Draw(c: CanvasState, pos: Option<Point>): (r: CanvasState)
    ensures !c.drawing || pos.None? ==> r == c
    ensures Valid(c) && c.drawing && pos.Some? ==>
      && r.currentPath.Some?
      && r.currentPath.value == c.currentPath.value.(points := c.currentPath.value.points + [pos.value])
    ensures r.drawing == c.drawing && r.history == c.history
    ensures Valid(c) ==> Valid(r)
  {
    if !c.drawing then c
    else
      match (pos, c.currentPath)
      case (Some(p), Some(path)) => c.(currentPath := Some(path.(points := path.points + [p])))
      case (_, _) => c
  }

  /** Whether ending the gesture now commits a stroke: one exists and has
      at least one point. */
  predicate Commits(c: CanvasState)
  {
    c.drawing && c.currentPath.Some? && |c.currentPath.value.points| > 0
  }

  /** `endDraw`: outside a gesture nothing changes. Otherwise the gesture
      ends, and a stroke with at least one point becomes the last committed
      path and empties the redo stack; the redo stack is otherwise kept. */
  function EndDraw(c: CanvasState): (r: CanvasState)
    ensures !c.drawing ==> r == c
    ensures c.drawing ==> !r.drawing && r.currentPath.None?
    ensures Commits(c) ==>
      && r.history.paths == c.history.paths + [c.currentPath]
      && r.history.redoStack == []
    ensures !Commits(c) ==> r.history == c.history
    ensures Valid(r)
  {
    if !c.drawing then c
    else
      var history := if Commits(c) then DrawingState.AddPath(c.history, c.currentPath) else c.history;
      CanvasState(false, None, history)
  }

  /** `undo`: moves the last committed path to the top of the redo stack;
      with no committed path nothing changes. */
  function Undo(c: CanvasState): (r: CanvasState)
    ensures |c.history.paths| == 0 ==> r == c
    ensures |c.history.paths| > 0 ==>
      && r.history.paths == c.history.paths[..|c.history.paths| - 1]
      && r.history.redoStack == c.history.redoStack + [c.history.paths[|c.history.paths| - 1]]
    ensures r.drawing == c.drawing && r.currentPath == c.currentPath
  {
    c.(history := DrawingState.Undo(c.history).0)
  }

  /** `redo`: moves the top of the redo stack back to the end of the
      committed paths; with an empty redo stack nothing changes. */
  function Redo(c: CanvasState): (r: CanvasState)
    ensures |c.history.redoStack| == 0 ==> r == c
    ensures |c.history.redoStack| > 0 ==>
      && r.history.paths == c.history.paths + [c.history.redoStack[|c.history.redoStack| - 1]]
      && r.history.redoStack == c.history.redoStack[..|c.history.redoStack| - 1]
    ensures r.drawing == c.drawing && r.currentPath == c.currentPath
  {
    c.(history := DrawingState.Redo(c.history).0)
  }

  /** `clearCanvas`: empties both lists; a gesture in progress goes on. */
  function ClearCanvas(c: CanvasState): (r: CanvasState)
    ensures r.history.paths == [] && r.history.redoStack == []
    ensures r.drawing == c.drawing && r.currentPath == c.currentPath
  {
    c.(history := DrawingState.Clear(c.history))
  }

  /** `addRemotePath`: appends a received stroke that has at least one
      point; anything else is dropped. The redo stack is left as it is. */
  function AddRemotePath(c: CanvasState, path: Option<Stroke>): (r: CanvasState)
    ensures path.Some? && |path.value.points| > 0 ==> r.history.paths == c.history.paths + [path]
    ensures !(path.Some? && |path.value.points| > 0) ==> r == c
    ensures r.history.redoStack == c.history.redoStack
    ensures r.drawing == c.drawing && r.currentPath == c.currentPath
  {
    if path.Some? && |path.value.points| > 0 then
      c.(history := c.history.(paths := c.history.paths + [path]))
    else c
  }

  /** Undo then redo on the canvas restores it exactly. */
  lemma UndoRedoRestores(c: CanvasState)
    requires |c.history.paths| > 0
    ensures Redo(Undo(c)) == c
  {
    DrawingState.UndoRedoRoundTrip(c.history);
  }

  /** Feeds a run of pointer moves to `draw`. */
  function DrawAll(c: CanvasState, moves: seq<Point>): CanvasState
    decreases |moves|
  {
    if |moves| == 0 then c else DrawAll(Draw(c, Some(moves[0])), moves[1..])
  }

  /** The points of a gesture are the pointer positions in the order they
      arrived, and moving the pointer never touches the committed lists. */
  lemma {:induction false} DrawAllAppends(c: CanvasState, moves: seq<Point>)
    requires Valid(c) && c.drawing
    ensures DrawAll(c, moves).drawing && DrawAll(c, moves).currentPath.Some?
    ensures DrawAll(c, moves).currentPath.value
      == c.currentPath.value.(points := c.currentPath.value.points + moves)
    ensures DrawAll(c, moves).history == c.history
    decreases |moves|
  {
    if |moves| > 0 {
      var next := Draw(c, Some(moves[0]));
      DrawAllAppends(next, moves[1..]);
      assert c.currentPath.value.points + [moves[0]] + moves[1..] == c.currentPath.value.points + moves;
    }
  }

  /** A whole gesture, press at `start`, moves through `moves`, release,
      commits one stroke holding exactly those points, in order, as the last
      committed path, and empties the redo stack. */
  lemma GestureCommitsStroke(c: CanvasState, start: Point, moves: seq<Point>, pen: Style, timestamp: int)
    ensures var r := EndDraw(DrawAll(StartDraw(c, Some(start), pen, timestamp), moves));
      && |r.history.paths| == |c.history.paths| + 1
      && r.history.paths[..|c.history.paths|] == c.history.paths
      && r.history.paths[|c.history.paths|] == Some(Stroke(pen.color, pen.width, pen.erasing, [start] + moves, timestamp))
      && r.history.redoStack == []
      && !r.drawing
  {
    var s := StartDraw(c, Some(start), pen, timestamp);
    DrawAllAppends(s, moves);
  }
}

=== FILE: client_app.dfy ===
/** The browser application (client/main.js): the presence and cursor maps
    kept from server messages, the handlers that replay remote strokes onto
    the local canvas, and the local actions that also emit messages. Each
    operation returns the new application state and the messages it hands
    to the connection controller. `ready` stands for `ws.isReady()` at the
    moment of the call; the DOM, notifications, the profile badge and
    local storage are not modelled. */
module ClientApp {
  import opened Wrappers
  import opened Strokes
  import opened Protocol
  import opened Text
  import Canvas
  import DrawingState
  import Server
  import Connection

  /** A remote pointer, as drawn over the canvas. */
  datatype Cursor = Cursor(x: int, y: int, color: string, name: string)

  /** `userId` is `null` until `init` arrives. A presence entry can be
      `undefined` (`None`) when a `user-joined` message carried no user. */
  datatype App = App(
    userId: Option<UserId>,
    users: map<UserId, Option<User>>,
    cursors: map<UserId, Cursor>,
    canvas: Canvas.CanvasState,
    room: RoomId)

  const DefaultRoom: RoomId := "main"
  const MinNameLength: nat := 3
  const MaxNameLength: nat := 20
  const DefaultCursorColor: string := "#000"

  /** The room at start-up: the `room` query parameter, else the stored
      room, else `"main"`, each taken only when non-empty. */
  function InitialRoom(param: Option<string>, stored: Option<string>): (r: RoomId)
    ensures Truthy(param) ==> r == param.value
    ensures !Truthy(param) && Truthy(stored) ==> r == stored.value
    ensures !Truthy(param) && !Truthy(stored) ==> r == DefaultRoom
    ensures r != ""
  {
    if Truthy(param) then param.value else if Truthy(stored) then stored.value else DefaultRoom
  }

  function Initial(room: RoomId): App
  {
    App(None, map[], map[], Canvas.Initial(), room)
  }

  /** The message came from this client itself (`msg.userId === userId`). */
  predicate Own(app: App, id: UserId)
  {
    app.userId == Some(id)
  }

  /** `userId && ws.isReady()`: the guard of every emitting action. */
  predicate CanSend(app: App, ready: bool)
  {
    Truthy(app.userId) && ready
  }

  /** `users[id]` is truthy: a known id with a presence record. */
  predicate Known(app: App, id: UserId)
  {
    id in app.users && app.users[id].Some?
  }

  /** The cursor record of a `cursor-move`: the mover's colour and name
      when known and non-empty, else black and the bare id. */
  function CursorFor(app: App, x: int, y: int, id: UserId): (r: Cursor)
    ensures r.x == x && r.y == y
    ensures Known(app, id) && app.users[id].value.color != "" ==> r.color == app.users[id].value.color
    ensures !(Known(app, id) && app.users[id].value.color != "") ==> r.color == DefaultCursorColor
    ensures Known(app, id) && app.users[id].value.name != "" ==> r.name == app.users[id].value.name
    ensures !(Known(app, id) && app.users[id].value.name != "") ==> r.name == id
    ensures r.name != "" || id == ""
  {
    var color := if Known(app, id) && app.users[id].value.color != "" then app.users[id].value.color else DefaultCursorColor;
    var name := if Known(app, id) && app.users[id].value.name != "" then app.users[id].value.name else id;
    Cursor(x, y, color, name)
  }

  /** The remote `undo` handler's list surgery: pop the last committed path
      and push onto the redo stack whatever is last AFTER the pop, which is
      `undefined` when nothing is left. */
  function RemoteUndo(c: Canvas.CanvasState): (r: Canvas.CanvasState)
    ensures r.history.paths == Canvas.Undo(c).history.paths
    ensures |c.history.paths| == 0 ==> r == c
    ensures |c.history.paths| > 0 ==>
      && |r.history.redoStack| == |c.history.redoStack| + 1
      && r.history.redoStack[..|c.history.redoStack|] == c.history.redoStack
      && r.history.redoStack[|c.history.redoStack|]
           == (if |c.history.paths| > 1 then c.history.paths[|c.history.paths| - 2] else None)
    ensures r.drawing == c.drawing && r.currentPath == c.currentPath
  {
    var paths := c.history.paths;
    if |paths| == 0 then c
    else
      var rest := paths[..|paths| - 1];
      var pushed := if |rest| > 0 then rest[|rest| - 1] else None;
      c.(history := DrawingState.State(rest, c.history.redoStack + [pushed]))
  }

  /** The remote `redo` handler's list surgery: pop the redo top and append
      it to the committed paths. */
  function RemoteRedo(c: Canvas.CanvasState): (r: Canvas.CanvasState)
    ensures r == Canvas.Redo(c)
  {
    var redo := c.history.redoStack;
    if |redo| == 0 then c
    else c.(history := DrawingState.State(c.history.paths + [redo[|redo| - 1]], redo[..|redo| - 1]))
  }

  /** The `clear-canvas` handler as the repaired program should have it:
      a clear from another client empties both lists and emits nothing;
      the client's own echo changes nothing. */
  function OnClearCanvas(app: App, from: UserId): (r: App)
    ensures Own(app, from) ==> r == app
    ensures !Own(app, from) ==>
      && r.canvas.history == DrawingState.Initial()
      && r.canvas.drawing == app.canvas.drawing && r.canvas.currentPath == app.canvas.currentPath
      && r.(canvas := app.canvas) == app
  {
    if Own(app, from) then app else app.(canvas := Canvas.ClearCanvas(app.canvas))
  }

  /** The message handlers registered with the connection controller.
      `init` adopts the id and the presence snapshot; `user-joined` records
      the announced entry; `user-left` forgets the id in the presence and
      cursor maps; `user-renamed` renames only a known id. The stroke and
      cursor relays are ignored when they echo this client's own id.
      `drawing-start` only affects the display. */
  function Receive(app: App, ev: Event): (r: App)
    ensures ev.Init? ==>
      && r.userId == Some(ev.userId)
      && r.users.Keys == ev.users.Keys
      && (forall u :: u in ev.users ==> r.users[u] == Some(ev.users[u]))
      && r.(userId := app.userId, users := app.users) == app
    ensures ev.UserJoined? ==> r == app.(users := app.users[ev.userId := ev.user])
    ensures ev.UserLeft? ==>
      && ev.userId !in r.users && ev.userId !in r.cursors
      && r.users.Keys == app.users.Keys - {ev.userId}
      && r.cursors.Keys == app.cursors.Keys - {ev.userId}
      && (forall u :: u in r.users ==> r.users[u] == app.users[u])
      && (forall u :: u in r.cursors ==> r.cursors[u] == app.cursors[u])
      && r.canvas == app.canvas && r.userId == app.userId
      && r == app.(users := app.users - {ev.userId}, cursors := app.cursors - {ev.userId})
    ensures ev.UserRenamed? && !Known(app, ev.userId) ==> r == app
    ensures ev.UserRenamed? && Known(app, ev.userId) ==>
      && r.users.Keys == app.users.Keys
      && r.users[ev.userId] == Some(app.users[ev.userId].value.(name := ev.newName))
      && (forall u :: u in app.users && u != ev.userId ==> r.users[u] == app.users[u])
      && r.(users := app.users) == app
    ensures ev.DrawingStart? || ev.Pong? || ev.OtherEvent? ==> r == app
    ensures (ev.DrawPath? || ev.Undo? || ev.Redo? || ev.ClearCanvas? || ev.CursorMove?) && Own(app, ev.userId) ==> r == app
    ensures ev.DrawPath? && !Own(app, ev.userId) ==> r == app.(canvas := Canvas.AddRemotePath(app.canvas, ev.path))
    ensures ev.Undo? && !Own(app, ev.userId) ==> r == app.(canvas := RemoteUndo(app.canvas))
    ensures ev.Redo? && !Own(app, ev.userId) ==> r == app.(canvas := Canvas.Redo(app.canvas))
    ensures ev.ClearCanvas? ==> r == OnClearCanvas(app, ev.userId)
    ensures ev.ClearCanvas? && !Own(app, ev.userId) ==>
      && r.canvas.history == DrawingState.Initial()
      && r.canvas.drawing == app.canvas.drawing && r.canvas.currentPath == app.canvas.currentPath
      && r.(canvas := app.canvas) == app
    ensures ev.CursorMove? && !Own(app, ev.userId) ==>
      && r.cursors == app.cursors[ev.userId := CursorFor(app, ev.x, ev.y, ev.userId)]
      && r.cursors[ev.userId].x == ev.x && r.cursors[ev.userId].y == ev.y
      && r.(cursors := app.cursors) == app
    ensures !ev.Init? && !ev.UserJoined? && !ev.UserLeft? && !ev.UserRenamed? ==> r.users == app.users && r.userId == app.userId
  {
    match ev
    case Init(id, snapshot) =>
      app.(userId := Some(id), users := map u | u in snapshot :: Some(snapshot[u]))
    case UserJoined(id, user) => app.(users := app.users[id := user])
    case UserLeft(id) => app.(users := app.users - {id}, cursors := app.cursors - {id})
    case UserRenamed(id, newName) =>
      if Known(app, id) then app.(users := app.users[id := Some(app.users[id].value.(name := newName))]) else app
    case DrawingStart(_) => app
    case DrawPath(path, id) =>
      if Own(app, id) then app else app.(canvas := Canvas.AddRemotePath(app.canvas, path))
    case Undo(id) =>
      if Own(app, id) || |app.canvas.history.paths| == 0 then app else app.(canvas := RemoteUndo(app.canvas))
    case Redo(id) =>
      if Own(app, id) || |app.canvas.history.redoStack| == 0 then app else app.(canvas := RemoteRedo(app.canvas))
    case ClearCanvas(id) => OnClearCanvas(app, id)
    case CursorMove(x, y, id) =>
      if Own(app, id) then app else app.(cursors := app.cursors[id := CursorFor(app, x, y, id)])
    case Pong => app
    case OtherEvent(_) => app
  }

  /** The overridden `endDraw`: ends the gesture exactly like the canvas's
      own `endDraw`, and when it commits a stroke and the client can send,
      emits `drawing-start` then `draw-path` carrying that stroke. */
  function LocalEndDraw(app: App, ready: bool): (r: (App, seq<Request>))
    ensures r.0 == app.(canvas := Canvas.EndDraw(app.canvas))
    ensures Canvas.Commits(app.canvas) && CanSend(app, ready) ==>
      r.1 == [DrawingStartReq(app.userId.value, app.room),
              DrawPathReq(app.canvas.currentPath, app.userId.value, app.room)]
    ensures !(Canvas.Commits(app.canvas) && CanSend(app, ready)) ==> r.1 == []
  {
    var c := app.canvas;
    if !c.drawing then (app, [])
    else
      var path := c.currentPath;
      if path.Some? && |path.value.points| > 0 then
        var committed := Canvas.CanvasState(false, None, DrawingState.State(c.history.paths + [path], []));
        var sends := if CanSend(app, ready)
          then [DrawingStartReq(app.userId.value, app.room), DrawPathReq(path, app.userId.value, app.room)]
          else [];
        (app.(canvas := committed), sends)
      else (app.(canvas := Canvas.CanvasState(false, None, c.history)), [])
  }

  /** The three toolbar actions that main.js overrides. */
  datatype Action = UndoAction | RedoAction | ClearAction

  /** The base canvas operation behind an action. */
  function Perform(c: Canvas.CanvasState, a: Action): Canvas.CanvasState
  {
    match a
    case UndoAction => Canvas.Undo(c)
    case RedoAction => Canvas.Redo(c)
    case ClearAction => Canvas.ClearCanvas(c)
  }

  /** The message an action emits. */
  function RequestFor(a: Action, id: UserId, room: RoomId): Request
  {
    match a
    case UndoAction => UndoReq(id, room)
    case RedoAction => RedoReq(id, room)
    case ClearAction => ClearCanvasReq(id, room)
  }

  /** The overridden `undo` / `redo` / `clearCanvas`, with the canvas
      redraw returning normally: the base operation, then exactly one
      message of the same type when the client can send, even when the
      base operation had nothing to do. */
  function LocalAction(app: App, a: Action, ready: bool): (r: (App, seq<Request>))
    ensures r.0 == app.(canvas := Perform(app.canvas, a))
    ensures CanSend(app, ready) ==> r.1 == [RequestFor(a, app.userId.value, app.room)]
    ensures !CanSend(app, ready) ==> r.1 == []
  {
    var sends := if CanSend(app, ready) then [RequestFor(a, app.userId.value, app.room)] else [];
    (app.(canvas := Perform(app.canvas, a)), sends)
  }

  /** The same actions as main.js runs them. The canvas's `redraw` is
      replaced by one that calls `drawCursors`, and `drawCursors` calls
      `redraw` again, so any base operation that reaches `redraw` ends in
      a stack overflow after its list changes and before the message is
      sent. Only undo on an empty path list and redo on an empty redo
      stack return before redrawing, and those still emit. */
  function LocalActionAsWritten(app: App, a: Action, ready: bool): (r: (App, seq<Request>))
    ensures r.0 == LocalAction(app, a, ready).0
    ensures r.1 == [] || r.1 == LocalAction(app, a, ready).1
    ensures a.ClearAction? ==> r.1 == []
    ensures a.UndoAction? && |app.canvas.history.paths| > 0 ==> r.1 == []
    ensures a.RedoAction? && |app.canvas.history.redoStack| > 0 ==> r.1 == []
    ensures a.UndoAction? && |app.canvas.history.paths| == 0 ==> r.1 == LocalAction(app, a, ready).1
    ensures a.RedoAction? && |app.canvas.history.redoStack| == 0 ==> r.1 == LocalAction(app, a, ready).1
  {
    var reachesRedraw := match a
      case UndoAction => |app.canvas.history.paths| > 0
      case RedoAction => |app.canvas.history.redoStack| > 0
      case ClearAction => true;
    var sends := if CanSend(app, ready) && !reachesRedraw then [RequestFor(a, app.userId.value, app.room)] else [];
    (app.(canvas := Perform(app.canvas, a)), sends)
  }

  /** As written, an undo that removes a stroke is never announced, while
      the repaired action announces it. */
  lemma UndoNeverAnnouncedAsWritten(app: App)
    requires CanSend(app, true) && |app.canvas.history.paths| > 0
    ensures LocalActionAsWritten(app, UndoAction, true).1 == []
    ensures LocalAction(app, UndoAction, true).1 == [UndoReq(app.userId.value, app.room)]
  {
  }

  /** The `clear-canvas` handler as main.js registers it: it calls the
      overridden `clearCanvas`, so with the redraw repaired a remote clear
      is re-emitted under this client's own id. */
  function OnClearCanvasAsWritten(app: App, from: UserId, ready: bool): (r: (App, seq<Request>))
    ensures Own(app, from) ==> r == (app, [])
    ensures !Own(app, from) ==> r == LocalAction(app, ClearAction, ready)
  {
    if Own(app, from) then (app, []) else LocalAction(app, ClearAction, ready)
  }

  /** With the handler as written, two ready clients in one room echo a
      clear to each other forever: a clears and emits; the relay reaches
      b, which clears and emits; the relay of that reaches a, which is left
      as it was and emits the very message it started with. */
  lemma ClearCanvasBounces(a: App, b: App)
    requires Truthy(a.userId) && Truthy(b.userId) && a.userId != b.userId
    ensures var (a1, m1) := LocalAction(a, ClearAction, true);
      var ev1 := Server.RelayOf(m1[0], a.userId.value);
      && ev1 == Some(ClearCanvas(a.userId.value))
      && var (b1, m2) := OnClearCanvasAsWritten(b, a.userId.value, true);
      && m2 == [ClearCanvasReq(b.userId.value, b.room)]
      && Server.RelayOf(m2[0], b.userId.value) == Some(ClearCanvas(b.userId.value))
      && OnClearCanvasAsWritten(a1, b.userId.value, true) == (a1, m1)
  {
    var (a1, m1) := LocalAction(a, ClearAction, true);
    assert Perform(a1.canvas, ClearAction) == a1.canvas;
  }

  /** With the repaired handler the same exchange settles after one
      relay: both canvases are empty and nothing further is emitted (the
      handler has no messages to return). */
  lemma ClearCanvasSettles(a: App, b: App)
    requires Truthy(a.userId) && Truthy(b.userId) && a.userId != b.userId
    ensures var (a1, m1) := LocalAction(a, ClearAction, true);
      && m1 == [ClearCanvasReq(a.userId.value, a.room)]
      && var ev := Server.RelayOf(m1[0], a.userId.value).value;
      && Receive(b, ev).canvas.history == DrawingState.Initial()
      && Receive(a1, ev) == a1
      && a1.canvas.history == DrawingState.Initial()
  {
  }

  /** The name a rename keeps: the input trimmed of whitespace. */
  predicate ValidName(name: string)
  {
    MinNameLength <= |name| <= MaxNameLength
  }

  /** The rename dialog's save: the input is trimmed; outside 3..20
      characters nothing changes and nothing is sent. Otherwise this
      client's own presence entry, when known, takes the new name, and the
      client emits `rename-user` when it can send. */
  function SaveName(app: App, input: string, ready: bool): (r: (App, seq<Request>))
    ensures !ValidName(Trim(input)) ==> r == (app, [])
    ensures ValidName(Trim(input)) ==>
      && r.0.users.Keys == app.users.Keys
      && (forall u :: u in app.users && !Own(app, u) ==> r.0.users[u] == app.users[u])
      && (app.userId.Some? && Known(app, app.userId.value) ==>
            r.0.users[app.userId.value] == Some(app.users[app.userId.value].value.(name := Trim(input))))
      && r.0.(users := app.users) == app
    ensures ValidName(Trim(input)) && CanSend(app, ready) ==>
      r.1 == [RenameUserReq(app.userId.value, app.room, Trim(input))]
    ensures !(ValidName(Trim(input)) && CanSend(app, ready)) ==> r.1 == []
  {
    var name := Trim(input);
    if !ValidName(name) then (app, [])
    else
      var users := match app.userId
        case Some(u) => if Known(app, u) then app.users[u := Some(app.users[u].value.(name := name))] else app.users
        case None => app.users;
      var sends := if CanSend(app, ready) then [RenameUserReq(app.userId.value, app.room, name)] else [];
      (app.(users := users), sends)
  }

  /** Every name a rename sends is the trimmed input: 3 to 20 characters,
      with no whitespace at either end. */
  lemma SentNameIsTrimmed(app: App, input: string, ready: bool)
    requires SaveName(app, input, ready).1 != []
    ensures var sent := SaveName(app, input, ready).1;
      && |sent| == 1 && sent[0].RenameUserReq?
      && ValidName(sent[0].newName)
      && !IsWhitespace(sent[0].newName[0]) && !IsWhitespace(sent[0].newName[|sent[0].newName| - 1])
  {
  }

  /** The room dialog's input: trimmed, and `"main"` when trimming leaves
      nothing. The result is never empty and never starts or ends with
      whitespace. */
  function ResolveRoomInput(input: string): (r: RoomId)
    ensures Trim(input) == "" ==> r == DefaultRoom
    ensures Trim(input) != "" ==> r == Trim(input)
    ensures r != "" && !IsWhitespace(r[0]) && !IsWhitespace(r[|r| - 1])
  {
    var t := Trim(input);
    if t == "" then
      assert !IsWhitespace('m') && !IsWhitespace('n');
      DefaultRoom
    else t
  }

  /** `changeRoom` as main.js runs it. The room and the stored room change,
      and the canvas's own `clearCanvas` empties both lists; but that
      `clearCanvas` ends in the recursive `redraw`, so nothing after it runs.
      No message is sent, the presence and cursor maps are kept, and the page
      never navigates to the new room's address (`None`), so the connection
      stays in the old server room. */
  function ChangeRoomAsWritten(app: App, newRoom: RoomId): (r: (App, Option<RoomId>))
    ensures r.1 == None
    ensures r.0.room == newRoom
    ensures r.0.canvas.history == DrawingState.Initial()
    ensures r.0.canvas.drawing == app.canvas.drawing && r.0.canvas.currentPath == app.canvas.currentPath
    ensures r.0.(room := app.room, canvas := app.canvas) == app
  {
    (app.(room := newRoom, canvas := Canvas.ClearCanvas(app.canvas)), None)
  }

  /** `changeRoom` as intended: the page navigates to `?room=<newRoom>`
      after storing `newRoom`, and the page that loads starts afresh in the
      room that address and store name (before any saved canvas is read
      back). */
  function ChangeRoom(newRoom: RoomId): (r: App)
    ensures newRoom != "" ==> r.room == newRoom
    ensures newRoom == "" ==> r.room == DefaultRoom
    ensures r.userId == None && r.users == map[] && r.cursors == map[]
    ensures r.canvas == Canvas.Initial()
  {
    var room := InitialRoom(Some(newRoom), Some(newRoom));
    Initial(room)
  }

  /** As written, a room change strands the page: it stays, with the old
      presence and cursors, in the old server room. As intended, it lands in
      the new room with no presence carried over. */
  lemma ChangeRoomStrandsPage(app: App, newRoom: RoomId)
    requires newRoom != "" && newRoom != app.room
    ensures ChangeRoomAsWritten(app, newRoom).1 == None
    ensures ChangeRoomAsWritten(app, newRoom).0.users == app.users
    ensures ChangeRoomAsWritten(app, newRoom).0.cursors == app.cursors
    ensures ChangeRoom(newRoom).room == newRoom && ChangeRoom(newRoom).users == map[]
  {
  }

  /** An empty or all-whitespace room input means `"main"`; any other
      input means itself, trimmed. */
  lemma BlankRoomInputIsMain(input: string)
    ensures AllWhitespace(input) <==> ResolveRoomInput(input) == DefaultRoom && Trim(input) == ""
  {
    var t := Trim(input);
    assert t == [] <==> AllWhitespace(input);
  }

  /** The canvas `mousemove` listener after throttling: the pointer
      position goes out as `cursor-move` when the client can send. */
  function LocalCursorMove(app: App, p: Point, ready: bool): (r: seq<Request>)
    ensures CanSend(app, ready) ==> r == [CursorMoveReq(p.x, p.y, app.userId.value, app.room)]
    ensures !CanSend(app, ready) ==> r == []
  {
    if CanSend(app, ready) then [CursorMoveReq(p.x, p.y, app.userId.value, app.room)] else []
  }

  /** Nothing drawn, undone, redone, cleared, renamed or pointed at while
      the connection is not ready is ever sent: the actions do not queue. */
  lemma OfflineEditsNeverSent(app: App, a: Action, input: string, p: Point)
    ensures LocalEndDraw(app, false).1 == []
    ensures LocalAction(app, a, false).1 == []
    ensures SaveName(app, input, false).1 == []
    ensures LocalCursorMove(app, p, false) == []
  {
  }

  /** Remote undo followed by remote redo gives back the original canvas
      exactly when the popped path equals the entry pushed in its place:
      its predecessor, or `undefined` for a lone path. */
  lemma {:induction false} RemoteUndoRedoRestoresIff(c: Canvas.CanvasState)
    requires |c.history.paths| > 0
    ensures var n := |c.history.paths|;
      Canvas.Redo(RemoteUndo(c)) == c <==>
        c.history.paths[n - 1] == (if n > 1 then c.history.paths[n - 2] else None)
  {
    var n := |c.history.paths|;
    var u := RemoteUndo(c);
    var pushed := if n > 1 then c.history.paths[n - 2] else None;
    var m := |c.history.redoStack|;
    assert u.history.redoStack[m] == pushed;
    assert u.history.redoStack[..m] == c.history.redoStack;
    var back := Canvas.Redo(u);
    assert back.history.paths == c.history.paths[..n - 1] + [pushed];
    assert back.history.redoStack == c.history.redoStack;
    assert c.history.paths == c.history.paths[..n - 1] + [c.history.paths[n - 1]];
  }

  /** Concretely: another client's undo and redo of a two-stroke canvas
      leave the first stroke twice and lose the second. */
  lemma RemoteUndoRedoLosesStroke(app: App, s1: Stroke, s2: Stroke, other: UserId)
    requires !Own(app, other) && s1 != s2
    requires app.canvas.history == DrawingState.State([Some(s1), Some(s2)], [])
    ensures Receive(Receive(app, Undo(other)), Redo(other)).canvas.history
      == DrawingState.State([Some(s1), Some(s1)], [])
  {
    var u := Receive(app, Undo(other));
    assert u == app.(canvas := RemoteUndo(app.canvas));
    assert u.canvas.history == DrawingState.State([Some(s1)], [Some(s1)]);
    assert Receive(u, Redo(other)) == u.(canvas := Canvas.Redo(u.canvas));
  }

  /** A stroke this client commits comes back from the server (relays do
      not exclude the sender) under the client's own id, and the echo
      leaves the client unchanged. */
  lemma OwnStrokeEchoIgnored(app: App)
    requires Truthy(app.userId) && Canvas.Commits(app.canvas)
    ensures var (app1, sends) := LocalEndDraw(app, true);
      && |sends| == 2
      && var ev := Server.RelayOf(sends[1], app.userId.value);
      && ev == Some(DrawPath(app.canvas.currentPath, app.userId.value))
      && Receive(app1, ev.value) == app1
  {
  }

  /** A stroke replicates: client `a` commits it and sends `draw-path`; the
      server relays it under the sender's connection id to every open,
      non-failing connection in the sender's room; and any other client `b`
      that receives the relay appends the very entry `a` committed as its own
      last path, keeping its redo stack. */
  lemma {:induction false} StrokeReplicates(a: App, s: Server.ServerState, i: nat, j: nat, failing: set<UserId>, b: App)
    requires Truthy(a.userId) && Canvas.Commits(a.canvas)
    requires i < |s.conns| && j < |s.conns| && Server.DistinctIds(s.conns)
    requires s.conns[i].userId == a.userId.value
    requires s.conns[j].open && s.conns[j].roomId == s.conns[i].roomId && s.conns[j].userId !in failing
    requires !Own(b, a.userId.value)
    ensures var (a1, sends) := LocalEndDraw(a, true);
      && |sends| == 2
      && var ev := DrawPath(a.canvas.currentPath, a.userId.value);
      && Server.Delivery(s.conns[j].userId, ev) in Server.HandleMessage(s, i, Parsed(sends[1]), failing).1
      && var b1 := Receive(b, ev);
      && |a1.canvas.history.paths| > 0
      && b1.canvas.history.paths == b.canvas.history.paths + [a1.canvas.history.paths[|a1.canvas.history.paths| - 1]]
      && b1.canvas.history.redoStack == b.canvas.history.redoStack
  {
    var (a1, sends) := LocalEndDraw(a, true);
    Server.RelayFanOut(s, i, sends[1], failing, j);
  }

  /** A pointer move replicates: client `a` sends `cursor-move`; the server
      relays it under the sender's connection id to every open, non-failing
      connection in the sender's room; and any other client `b` that receives
      it draws the sender's cursor at that position, labelled from its own
      presence entry for the sender, with nothing else changed. */
  lemma {:induction false} CursorReplicates(a: App, p: Point, s: Server.ServerState, i: nat, j: nat, failing: set<UserId>, b: App)
    requires Truthy(a.userId)
    requires i < |s.conns| && j < |s.conns| && Server.DistinctIds(s.conns)
    requires s.conns[i].userId == a.userId.value
    requires s.conns[j].open && s.conns[j].roomId == s.conns[i].roomId && s.conns[j].userId !in failing
    requires !Own(b, a.userId.value)
    ensures var sends := LocalCursorMove(a, p, true);
      && |sends| == 1
      && var ev := CursorMove(p.x, p.y, a.userId.value);
      && Server.Delivery(s.conns[j].userId, ev) in Server.HandleMessage(s, i, Parsed(sends[0]), failing).1
      && var b1 := Receive(b, ev);
      && a.userId.value in b1.cursors
      && b1.cursors[a.userId.value] == CursorFor(b, p.x, p.y, a.userId.value)
      && b1.cursors[a.userId.value].x == p.x && b1.cursors[a.userId.value].y == p.y
      && b1.(cursors := b.cursors) == b
  {
    var sends := LocalCursorMove(a, p, true);
    Server.RelayFanOut(s, i, sends[0], failing, j);
  }

  /** Presence bookkeeping: a user this client did not list who joins and
      leaves again leaves no trace, whether or not they were renamed or
      moved their cursor in between; a rename after the join is what the
      presence map shows. */
  lemma PresenceRoundTrip(app: App, id: UserId, user: User, newName: string, x: int, y: int)
    requires id !in app.users && id !in app.cursors && !Own(app, id)
    ensures var joined := Receive(app, UserJoined(id, Some(user)));
      && Receive(joined, UserLeft(id)) == app
      && Receive(joined, UserRenamed(id, newName)).users[id] == Some(user.(name := newName))
      && Receive(Receive(joined, UserRenamed(id, newName)), UserLeft(id)) == app
      && Receive(Receive(joined, CursorMove(x, y, id)), UserLeft(id)) == app
  {
    var joined := Receive(app, UserJoined(id, Some(user)));
    assert joined.users - {id} == app.users;
    var renamed := Receive(joined, UserRenamed(id, newName));
    assert renamed.users - {id} == app.users;
    assert app.cursors - {id} == app.cursors;
    var moved := Receive(joined, CursorMove(x, y, id));
    assert moved.cursors - {id} == app.cursors;
  }

  /** The `open` handler sends `join` for the current room. The controller
      has already flushed its queue and is ready, so the join goes out
      right after the queued messages; and since the room name is never
      empty, the server moves the connection into that room. */
  lemma OpenJoinsCurrentRoom(c: Connection.Controller, app: App, s: Server.ServerState, i: nat, failing: set<UserId>)
    requires app.room != "" && i < |s.conns|
    ensures var (c1, effects) := Connection.OnSocketEvent(c, Connection.OpenEvent);
      && effects[..|c.messageQueue|] == Connection.Transmits(c.messageQueue)
      && Connection.Send(c1, JoinReq(Some(app.room))) == (c1, [Connection.Transmit(JoinReq(Some(app.room)))])
    ensures Server.HandleMessage(s, i, Parsed(JoinReq(Some(app.room))), failing).0.conns[i].roomId == app.room
  {
  }
}

=== FILE: connection.dfy ===
/** The client's connection controller (client/websocket.js): an
    `isConnected` flag, a bounded reconnect counter, a FIFO queue of
    messages sent while not connected, and one handler per message type.
    Socket events, timer firings and the caller's operations are explicit
    inputs; what the controller does to the outside world (transmit on the
    socket, call a handler, arm the reconnect timer) is the list of effects
    each input produces. */
module Connection {
  import opened Wrappers
  import opened Protocol

  /** The browser socket's `readyState`. */
  datatype ReadyState = Connecting | Open | Closing | Closed

  /** The identity of a registered callback. */
  type HandlerId = nat

  /** Constructor options; `None` is an absent option. */
  datatype Options = Options(maxReconnectAttempts: Option<int>, reconnectDelay: Option<int>)

  /** `socket` is `None` until a socket has been constructed; `pinging`
      says whether the ping interval is armed. */
  datatype Controller = Controller(
    handlers: map<string, HandlerId>,
    messageQueue: seq<Request>,
    isConnected: bool,
    reconnectAttempts: int,
    maxReconnectAttempts: int,
    reconnectDelay: int,
    socket: Option<ReadyState>,
    pinging: bool)

  /** What a handler is called with: nothing (`open`, `close`), the error
      (`error`), or the parsed message. */
  datatype HandlerArg = NoArg | ErrorArg | MessageArg(event: Event)

  datatype Effect =
    | Transmit(req: Request)
    | Invoke(handler: HandlerId, arg: HandlerArg)
    | ScheduleReconnect(delay: int)

  datatype SocketEvent = OpenEvent | MessageEvent(frame: Frame<Event>) | CloseEvent | ErrorEvent

  const DefaultMaxReconnectAttempts: int := 5
  const DefaultReconnectDelay: int := 3000

  /** `option || fallback`: an absent option or 0 (falsy) falls back. */
  function OrDefault(option: Option<int>, fallback: int): (r: int)
    ensures option.None? ==> r == fallback
    ensures option == Some(0) ==> r == fallback
    ensures option.Some? && option.value != 0 ==> r == option.value
  {
    if option.None? || option.value == 0 then fallback else option.value
  }

  /** The counter never goes negative and never passes the maximum, except
      that it stays 0 under a negative maximum. */
  predicate Valid(c: Controller)
  {
    0 <= c.reconnectAttempts && (c.reconnectAttempts <= c.maxReconnectAttempts || c.reconnectAttempts == 0)
  }

  /** `isReady`: connected and the socket is OPEN. */
  predicate IsReady(c: Controller)
    ensures IsReady(c) ==> c.isConnected && c.socket == Some(Open)
    ensures c.isConnected && c.socket == Some(Open) ==> IsReady(c)
  {
    c.isConnected && c.socket == Some(Open)
  }

  /** The call of the handler registered for `kind`, if there is one. */
  function HandlerCall(handlers: map<string, HandlerId>, kind: string, arg: HandlerArg): (r: seq<Effect>)
    ensures kind in handlers ==> r == [Invoke(handlers[kind], arg)]
    ensures kind !in handlers ==> r == []
  {
    if kind in handlers then [Invoke(handlers[kind], arg)] else []
  }

  /** The transmissions of a flushed queue, front first. */
  function Transmits(queue: seq<Request>): (r: seq<Effect>)
    ensures |r| == |queue|
    ensures forall k :: 0 <= k < |queue| ==> r[k] == Transmit(queue[k])
  {
    if |queue| == 0 then [] else [Transmit(queue[0])] + Transmits(queue[1..])
  }

  /** `handleReconnect`: once the counter has reached the maximum nothing
      happens; otherwise the counter goes up by one and the reconnect timer
      is armed with the configured delay. */
  function HandleReconnect(c: Controller): (r: (Controller, seq<Effect>))
    ensures c.reconnectAttempts >= c.maxReconnectAttempts ==> r == (c, [])
    ensures c.reconnectAttempts < c.maxReconnectAttempts ==>
      && r.0 == c.(reconnectAttempts := c.reconnectAttempts + 1)
      && r.1 == [ScheduleReconnect(c.reconnectDelay)]
    ensures Valid(c) ==> Valid(r.0)
  {
    if c.reconnectAttempts >= c.maxReconnectAttempts then (c, [])
    else (c.(reconnectAttempts := c.reconnectAttempts + 1), [ScheduleReconnect(c.reconnectDelay)])
  }

  /** `connect`: a new socket starts CONNECTING; when constructing it
      throws, `handleReconnect` runs instead and the old socket stays. */
  function Connect(c: Controller, constructed: bool): (r: (Controller, seq<Effect>))
    ensures constructed ==> r == (c.(socket := Some(Connecting)), [])
    ensures !constructed ==> r == HandleReconnect(c)
    ensures Valid(c) ==> Valid(r.0)
  {
    if constructed then (c.(socket := Some(Connecting)), []) else HandleReconnect(c)
  }

  /** The constructor: no handlers, an empty queue, not connected, the
      options or their defaults, then `connect`. */
  function Create(options: Options, constructed: bool): (r: (Controller, seq<Effect>))
    ensures r.0.handlers == map[] && r.0.messageQueue == [] && !r.0.isConnected
    ensures r.0.maxReconnectAttempts == OrDefault(options.maxReconnectAttempts, DefaultMaxReconnectAttempts)
    ensures r.0.reconnectDelay == OrDefault(options.reconnectDelay, DefaultReconnectDelay)
    ensures !r.0.pinging
    ensures constructed ==> r.0.socket == Some(Connecting) && r.0.reconnectAttempts == 0 && r.1 == []
    ensures !constructed ==> r.0.socket == None
    ensures !constructed && r.0.maxReconnectAttempts > 0 ==>
      r.0.reconnectAttempts == 1 && r.1 == [ScheduleReconnect(r.0.reconnectDelay)]
    ensures !constructed && r.0.maxReconnectAttempts <= 0 ==> r.0.reconnectAttempts == 0 && r.1 == []
    ensures Valid(r.0)
  {
    var c := Controller(map[], [], false, 0,
      OrDefault(options.maxReconnectAttempts, DefaultMaxReconnectAttempts),
      OrDefault(options.reconnectDelay, DefaultReconnectDelay), None, false);
    Connect(c, constructed)
  }

  /** `send`: transmits at once when ready; otherwise appends to the tail of
      the queue and transmits nothing. */
  function Send(c: Controller, req: Request): (r: (Controller, seq<Effect>))
    ensures IsReady(c) ==> r == (c, [Transmit(req)])
    ensures !IsReady(c) ==> r == (c.(messageQueue := c.messageQueue + [req]), [])
  {
    if IsReady(c) then (c, [Transmit(req)]) else (c.(messageQueue := c.messageQueue + [req]), [])
  }

  /** `on`: the one handler slot for `kind` now holds `handler`, replacing
      any earlier one; the other slots keep theirs. */
  function On(c: Controller, kind: string, handler: HandlerId): (r: Controller)
    ensures r.handlers.Keys == c.handlers.Keys + {kind}
    ensures r.handlers[kind] == handler
    ensures forall k :: k in c.handlers && k != kind ==> r.handlers[k] == c.handlers[k]
    ensures r.(handlers := c.handlers) == c
  {
    c.(handlers := c.handlers[kind := handler])
  }

  /** `close`: stops the ping timer and starts closing the socket. No flag
      records that the close was asked for. */
  function Close(c: Controller): (r: Controller)
    ensures !r.pinging
    ensures r.isConnected == c.isConnected && r.reconnectAttempts == c.reconnectAttempts
    ensures r.messageQueue == c.messageQueue && r.handlers == c.handlers
    ensures c.socket == Some(Open) ==> r.socket == Some(Closing)
    ensures c.socket == Some(Connecting) ==> r.socket == Some(Closing)
    ensures c.socket != Some(Open) && c.socket != Some(Connecting) ==> r.socket == c.socket
    ensures r.(pinging := c.pinging, socket := c.socket) == c
  {
    var socket := if c.socket == Some(Open) || c.socket == Some(Connecting) then Some(Closing) else c.socket;
    c.(pinging := false, socket := socket)
  }

  /** The socket listeners. `open`: connected, the counter reset, the queue
      transmitted front first and emptied, pinging armed, and only then the
      `open` handler. `message`: unparseable text is dropped, `pong` is
      consumed here, any other type goes to the handler registered for it.
      `close`: not connected, pinging stopped, the `close` handler, then
      `handleReconnect`. `error`: only the `error` handler. */
  function OnSocketEvent(c: Controller, ev: SocketEvent): (r: (Controller, seq<Effect>))
    ensures ev.OpenEvent? ==>
      && IsReady(r.0) && r.0.reconnectAttempts == 0 && r.0.messageQueue == [] && r.0.pinging
      && r.1 == Transmits(c.messageQueue) + HandlerCall(c.handlers, "open", NoArg)
    ensures ev.MessageEvent? && ev.frame.Parsed? && Kind(ev.frame.msg) != "pong" ==>
      r == (c, HandlerCall(c.handlers, Kind(ev.frame.msg), MessageArg(ev.frame.msg)))
    ensures ev.MessageEvent? && (ev.frame.Garbled? || Kind(ev.frame.msg) == "pong") ==> r == (c, [])
    ensures ev.CloseEvent? ==>
      && !r.0.isConnected && !r.0.pinging && r.0.socket == Some(Closed)
      && r.1 == HandlerCall(c.handlers, "close", NoArg)
                + HandleReconnect(c.(isConnected := false, pinging := false, socket := Some(Closed))).1
    ensures ev.CloseEvent? ==>
      r.0 == HandleReconnect(c.(isConnected := false, pinging := false, socket := Some(Closed))).0
    ensures ev.CloseEvent? ==>
      && r.0.messageQueue == c.messageQueue
      && (c.reconnectAttempts < c.maxReconnectAttempts ==> r.0.reconnectAttempts == c.reconnectAttempts + 1)
      && (c.reconnectAttempts >= c.maxReconnectAttempts ==> r.0.reconnectAttempts == c.reconnectAttempts)
    ensures r.0.maxReconnectAttempts == c.maxReconnectAttempts && r.0.reconnectDelay == c.reconnectDelay
    ensures ev.ErrorEvent? ==> r == (c, HandlerCall(c.handlers, "error", ErrorArg))
    ensures r.0.handlers == c.handlers
    ensures Valid(c) ==> Valid(r.0)
  {
    match ev
    case OpenEvent =>
      (c.(isConnected := true, reconnectAttempts := 0, messageQueue := [], socket := Some(Open), pinging := true),
       Transmits(c.messageQueue) + HandlerCall(c.handlers, "open", NoArg))
    case MessageEvent(Garbled) => (c, [])
    case MessageEvent(Parsed(e)) =>
      if Kind(e) == "pong" then (c, [])
      else (c, HandlerCall(c.handlers, Kind(e), MessageArg(e)))
    case CloseEvent =>
      var closed := c.(isConnected := false, pinging := false, socket := Some(Closed));
      var (next, effects) := HandleReconnect(closed);
      (next, HandlerCall(c.handlers, "close", NoArg) + effects)
    case ErrorEvent => (c, HandlerCall(c.handlers, "error", ErrorArg))
  }

  /** The ping interval firing: sends `ping` when ready (which transmits
      it at once); nothing otherwise. */
  function OnPingTimer(c: Controller): (r: (Controller, seq<Effect>))
    ensures c.pinging && IsReady(c) ==> r == (c, [Transmit(PingReq)])
    ensures !(c.pinging && IsReady(c)) ==> r == (c, [])
  {
    if c.pinging && IsReady(c) then Send(c, PingReq) else (c, [])
  }

  /** Every input the controller reacts to. */
  datatype Input =
    | Socket(ev: SocketEvent)
    | ReconnectTimer(constructed: bool)
    | PingTimer
    | SendCall(req: Request)
    | OnCall(kind: string, handler: HandlerId)
    | CloseCall

  function Step(c: Controller, input: Input): (r: (Controller, seq<Effect>))
    ensures Valid(c) ==> Valid(r.0)
  {
    match input
    case Socket(ev) => OnSocketEvent(c, ev)
    case ReconnectTimer(constructed) => Connect(c, constructed)
    case PingTimer => OnPingTimer(c)
    case SendCall(req) => Send(c, req)
    case OnCall(kind, h) => (On(c, kind, h), [])
    case CloseCall => (Close(c), [])
  }

  /** Runs a sequence of inputs, collecting the effects in order. */
  function Run(c: Controller, inputs: seq<Input>): (r: (Controller, seq<Effect>))
    decreases |inputs|
  {
    if |inputs| == 0 then (c, [])
    else
      var (c1, e1) := Step(c, inputs[0]);
      var (c2, e2) := Run(c1, inputs[1..]);
      (c2, e1 + e2)
  }

  function CountSchedules(effects: seq<Effect>): nat
  {
    if |effects| == 0 then 0
    else (if effects[0].ScheduleReconnect? then 1 else 0) + CountSchedules(effects[1..])
  }

  lemma {:induction false} CountSchedulesAppend(a: seq<Effect>, b: seq<Effect>)
    ensures CountSchedules(a + b) == CountSchedules(a) + CountSchedules(b)
    decreases |a|
  {
    if |a| == 0 {
      assert a + b == b;
    } else {
      assert (a + b)[1..] == a[1..] + b;
      CountSchedulesAppend(a[1..], b);
    }
  }

  /** Every input except a successful `open` arms the reconnect timer
      exactly as many times as it raises the counter, and none changes the
      configured maximum. */
  lemma StepCountsAttempts(c: Controller, input: Input)
    requires input != Socket(OpenEvent)
    ensures CountSchedules(Step(c, input).1) == Step(c, input).0.reconnectAttempts - c.reconnectAttempts
    ensures Step(c, input).0.maxReconnectAttempts == c.maxReconnectAttempts
  {
    match input
    case Socket(ev) =>
      if ev.CloseEvent? {
        var closed := c.(isConnected := false, pinging := false, socket := Some(Closed));
        CountSchedulesAppend(HandlerCall(c.handlers, "close", NoArg), HandleReconnect(closed).1);
      }
    case _ =>
  }

  /** Retrying is bounded: without a successful `open`, any run of inputs
      arms the reconnect timer at most `maxReconnectAttempts` times in all,
      counting the attempts already made. */
  lemma {:induction false} ReconnectsBounded(c: Controller, inputs: seq<Input>)
    requires Valid(c)
    requires forall k :: 0 <= k < |inputs| ==> inputs[k] != Socket(OpenEvent)
    ensures CountSchedules(Run(c, inputs).1) == Run(c, inputs).0.reconnectAttempts - c.reconnectAttempts
    ensures c.reconnectAttempts + CountSchedules(Run(c, inputs).1) <= if c.maxReconnectAttempts < 0 then 0 else c.maxReconnectAttempts
    decreases |inputs|
  {
    if |inputs| > 0 {
      var (c1, e1) := Step(c, inputs[0]);
      StepCountsAttempts(c, inputs[0]);
      ReconnectsBounded(c1, inputs[1..]);
      CountSchedulesAppend(e1, Run(c1, inputs[1..]).1);
    }
  }

  /** After `on(kind, handler)`, a message of that type invokes exactly
      `handler`, with the message, whatever was registered for it before and
      whatever is registered for other types afterwards; a `pong` reaches no
      handler even when one is registered for it. */
  lemma {:induction false} OnThenMessageInvokes(c: Controller, handler: HandlerId, other: string, otherHandler: HandlerId, e: Event)
    requires other != Kind(e)
    ensures var c2 := On(On(c, Kind(e), handler), other, otherHandler);
      Kind(e) != "pong" ==> OnSocketEvent(c2, MessageEvent(Parsed(e))) == (c2, [Invoke(handler, MessageArg(e))])
    ensures var c2 := On(c, Kind(e), handler);
      Kind(e) == "pong" ==> OnSocketEvent(c2, MessageEvent(Parsed(e))) == (c2, [])
  {
    var c1 := On(c, Kind(e), handler);
    var c2 := On(c1, other, otherHandler);
    assert c2.handlers[Kind(e)] == handler;
  }

  /** Messages sent while not ready go out, in the order they were sent,
      as soon as the socket opens, and before anything sent afterwards. */
  lemma QueuedSendsGoFirst(c: Controller, a: Request, b: Request, later: Request)
    requires !IsReady(c)
    ensures var afterOpen := OnSocketEvent(Send(Send(c, a).0, b).0, OpenEvent);
      && |afterOpen.1| >= |c.messageQueue| + 2
      && afterOpen.1[..|c.messageQueue| + 2] == Transmits(c.messageQueue + [a, b])
      && Send(afterOpen.0, later) == (afterOpen.0, [Transmit(later)])
  {
    var c1 := Send(Send(c, a).0, b).0;
    assert c1.messageQueue == c.messageQueue + [a, b];
  }

  /** `close()` does not stop reconnection: the close event it leads to
      still arms the reconnect timer while attempts remain. */
  lemma CloseStillReconnects(c: Controller)
    requires c.reconnectAttempts < c.maxReconnectAttempts
    ensures ScheduleReconnect(c.reconnectDelay) in OnSocketEvent(Close(c), CloseEvent).1
  {
    var eff := OnSocketEvent(Close(c), CloseEvent).1;
    assert eff[|eff| - 1] == ScheduleReconnect(c.reconnectDelay);
  }
}

=== FILE: drawing_state.dfy ===
/** The committed-paths list and redo stack of server/drawing-state.js. The
    pair is generic in the entry type because the client canvas keeps the
    same pair over entries that may be `undefined` (see module Canvas). The
    top of the redo stack is its LAST element, as with JavaScript's
    `push`/`pop`. */
module DrawingState {
  import opened Wrappers

  datatype State<T> = State(paths: seq<T>, redoStack: seq<T>)

  function Initial<T>(): State<T>
  {
    State([], [])
  }

  /** `s` read back to front. */
  function Reversed<T>(s: seq<T>): (r: seq<T>)
    ensures |r| == |s|
    ensures forall i :: 0 <= i < |s| ==> r[i] == s[|s| - 1 - i]
  {
    if |s| == 0 then [] else [s[|s| - 1]] + Reversed(s[..|s| - 1])
  }

  /** The committed paths followed by the redo stack from the top down:
      everything that undo and redo can shuffle between the two lists, in
      the order a run of redos would rebuild it. */
  function Timeline<T>(s: State<T>): seq<T>
  {
    s.paths + Reversed(s.redoStack)
  }

  /** Commits a path: it becomes the last committed path and the redo stack
      is emptied, since a new edit invalidates what was undone. */
  function AddPath<T>(s: State<T>, path: T): (r: State<T>)
    ensures |r.paths| == |s.paths| + 1 && r.paths[|s.paths|] == path
    ensures r.paths[..|s.paths|] == s.paths
    ensures r.redoStack == []
  {
    State(s.paths + [path], [])
  }

  /** Moves the last committed path onto the redo stack and returns it;
      returns `None` (the source's `null`) and changes nothing when no path
      is committed. */
  function Undo<T>(s: State<T>): (r: (State<T>, Option<T>))
    ensures |s.paths| == 0 <==> r.1.None?
    ensures |s.paths| == 0 ==> r.0 == s
    ensures |s.paths| > 0 ==>
      && r.1 == Some(s.paths[|s.paths| - 1])
      && r.0.paths == s.paths[..|s.paths| - 1]
      && r.0.redoStack == s.redoStack + [s.paths[|s.paths| - 1]]
    ensures |r.0.paths| + |r.0.redoStack| == |s.paths| + |s.redoStack|
    ensures Timeline(r.0) == Timeline(s)
  {
    if |s.paths| == 0 then (s, None)
    else
      var popped := s.paths[|s.paths| - 1];
      var r := State(s.paths[..|s.paths| - 1], s.redoStack + [popped]);
      assert Reversed(r.redoStack) == [popped] + Reversed(s.redoStack);
      assert s.paths == r.paths + [popped];
      (r, Some(popped))
  }

  /** Moves the top of the redo stack back to the end of the committed
      paths and returns it; returns `None` and changes nothing when the
      redo stack is empty. */
  function Redo<T>(s: State<T>): (r: (State<T>, Option<T>))
    ensures |s.redoStack| == 0 <==> r.1.None?
    ensures |s.redoStack| == 0 ==> r.0 == s
    ensures |s.redoStack| > 0 ==>
      && r.1 == Some(s.redoStack[|s.redoStack| - 1])
      && r.0.paths == s.paths + [s.redoStack[|s.redoStack| - 1]]
      && r.0.redoStack == s.redoStack[..|s.redoStack| - 1]
    ensures |r.0.paths| + |r.0.redoStack| == |s.paths| + |s.redoStack|
    ensures Timeline(r.0) == Timeline(s)
  {
    if |s.redoStack| == 0 then (s, None)
    else
      var top := s.redoStack[|s.redoStack| - 1];
      var r := State(s.paths + [top], s.redoStack[..|s.redoStack| - 1]);
      assert s.redoStack == r.redoStack + [top];
      assert Reversed(s.redoStack) == [top] + Reversed(r.redoStack);
      (r, Some(top))
  }

  /** The committed paths, as the copy `getPaths` hands out: the list
      itself, which is the part of the timeline that is not undone. */
  function GetPaths<T>(s: State<T>): (r: seq<T>)
    ensures r == s.paths
    ensures r + Reversed(s.redoStack) == Timeline(s)
  {
    s.paths
  }

  /** Drops every committed and undone path. */
  function Clear<T>(s: State<T>): (r: State<T>)
    ensures Timeline(r) == [] && GetPaths(r) == []
    ensures Undo(r).1.None? && Redo(r).1.None?
  {
    State([], [])
  }

  /** Undo then redo puts both lists back exactly as they were. */
  lemma UndoRedoRoundTrip<T>(s: State<T>)
    requires |s.paths| > 0
    ensures Redo(Undo(s).0) == (s, Undo(s).1)
  {
    var u := Undo(s).0;
    assert u.redoStack[..|u.redoStack| - 1] == s.redoStack;
    assert u.paths + [s.paths[|s.paths| - 1]] == s.paths;
  }

  /** Redo then undo puts both lists back exactly as they were. */
  lemma RedoUndoRoundTrip<T>(s: State<T>)
    requires |s.redoStack| > 0
    ensures Undo(Redo(s).0) == (s, Redo(s).1)
  {
    var r := Redo(s).0;
    assert r.paths[..|r.paths| - 1] == s.paths;
    assert r.redoStack + [s.redoStack[|s.redoStack| - 1]] == s.redoStack;
  }

  /** Undoing a path that was just added returns it and leaves exactly it
      on the redo stack. */
  lemma UndoAfterAddPath<T>(s: State<T>, path: T)
    ensures Undo(AddPath(s, path)) == (State(s.paths, [path]), Some(path))
  {
    assert (s.paths + [path])[..|s.paths|] == s.paths;
  }

  /** `getPaths` after `addPath` is the old list with the new path at the end. */
  lemma GetPathsAfterAddPath<T>(s: State<T>, path: T)
    ensures GetPaths(AddPath(s, path)) == GetPaths(s) + [path]
  {
  }

  datatype Step = UndoStep | RedoStep

  /** Applies a run of undo and redo calls in order. */
  function Run<T>(s: State<T>, steps: seq<Step>): State<T>
    decreases |steps|
  {
    if |steps| == 0 then s
    else
      var next := if steps[0] == UndoStep then Undo(s).0 else Redo(s).0;
      Run(next, steps[1..])
  }

  /** No run of undos and redos creates or loses a path: the timeline, and
      with it the combined count of the two lists, is what it was. */
  lemma {:induction false} RunKeepsTimeline<T>(s: State<T>, steps: seq<Step>)
    ensures Timeline(Run(s, steps)) == Timeline(s)
    ensures |Run(s, steps).paths| + |Run(s, steps).redoStack| == |s.paths| + |s.redoStack|
    decreases |steps|
  {
    if |steps| > 0 {
      var next := if steps[0] == UndoStep then Undo(s).0 else Redo(s).0;
      RunKeepsTimeline(next, steps[1..]);
    }
  }
}

=== FILE: ordered_sets.dfy ===
/** A JavaScript `Set` as the sequence of its elements in insertion order
    (the order `Array.from` reports) with no repetitions. */
module OrderedSets {

  predicate Distinct<T(==)>(s: seq<T>)
  {
    forall i, j :: 0 <= i < j < |s| ==> s[i] != s[j]
  }

  /** `set.add(x)`: appends `x` unless it is already present. */
  function Add<T(==,!new)>(s: seq<T>, x: T): (r: seq<T>)
    ensures forall y :: y in r <==> y in s || y == x
    ensures x in s ==> r == s
    ensures x !in s ==> |r| == |s| + 1 && r[..|s|] == s
    ensures Distinct(s) ==> Distinct(r)
  {
    if x in s then s else s + [x]
  }

  /** `set.delete(x)`: removes `x`, keeping the order of the rest. */
  function Delete<T(==,!new)>(s: seq<T>, x: T): (r: seq<T>)
    ensures forall y :: y in r <==> y in s && y != x
    ensures x !in s ==> r == s
    ensures Distinct(s) ==> Distinct(r)
    ensures Distinct(s) && x in s ==> |r| == |s| - 1
  {
    if |s| == 0 then []
    else
      var rest := Delete(s[1..], x);
      if s[0] == x then rest
      else
        assert Distinct(s) ==> s[0] !in s[1..];
        [s[0]] + rest
  }

  /** Deleting what was just appended gives the original sequence back. */
  lemma {:induction false} DeleteUndoesAdd<T(!new)>(s: seq<T>, x: T)
    requires x !in s
    ensures Delete(Add(s, x), x) == s
  {
    if |s| > 0 {
      assert (s + [x])[1..] == s[1..] + [x];
      DeleteUndoesAdd(s[1..], x);
    }
  }
}

=== FILE: protocol.dfy ===
/** The JSON messages exchanged between browser clients and the relay
    server, one variant per `type` string. The client-supplied `userId` and
    `roomId` fields the server ignores are kept (as `claimedUser` and
    `claimedRoom`) so that the model can say they are ignored. */
module Protocol {
  import opened Wrappers
  import opened Strokes

  type UserId = string
  type RoomId = string

  /** A participant's presence record, as the server keeps it. */
  datatype User = User(id: UserId, name: string, color: string)

  /** A received frame: either text that `JSON.parse` rejects, or a message. */
  datatype Frame<T> = Garbled | Parsed(msg: T)

  /** Client-to-server messages. `OtherReq` is any `type` the server's
      dispatch does not name. */
  datatype Request =
    | JoinReq(roomId: Option<string>)
    | PingReq
    | DrawPathReq(path: Option<Stroke>, claimedUser: string, claimedRoom: string)
    | UndoReq(claimedUser: string, claimedRoom: string)
    | RedoReq(claimedUser: string, claimedRoom: string)
    | ClearCanvasReq(claimedUser: string, claimedRoom: string)
    | CursorMoveReq(x: int, y: int, claimedUser: string, claimedRoom: string)
    | DrawingStartReq(claimedUser: string, claimedRoom: string)
    | RenameUserReq(claimedUser: string, claimedRoom: string, newName: string)
    | OtherReq(kind: string)

  /** Server-to-client messages. `UserRenamed` and `DrawingStart` are
      handled by the client although this server never sends them. */
  datatype Event =
    | Init(userId: UserId, users: map<UserId, User>)
    | UserJoined(userId: UserId, user: Option<User>)
    | UserLeft(userId: UserId)
    | UserRenamed(userId: UserId, newName: string)
    | DrawingStart(userId: UserId)
    | DrawPath(path: Option<Stroke>, userId: UserId)
    | Undo(userId: UserId)
    | Redo(userId: UserId)
    | ClearCanvas(userId: UserId)
    | CursorMove(x: int, y: int, userId: UserId)
    | Pong
    | OtherEvent(kind: string)

  /** The `type` field of a server-to-client message; the client's
      connection controller routes on it. */
  function Kind(e: Event): string
  {
    match e
    case Init(_, _) => "init"
    case UserJoined(_, _) => "user-joined"
    case UserLeft(_) => "user-left"
    case UserRenamed(_, _) => "user-renamed"
    case DrawingStart(_) => "drawing-start"
    case DrawPath(_, _) => "draw-path"
    case Undo(_) => "undo"
    case Redo(_) => "redo"
    case ClearCanvas(_) => "clear-canvas"
    case CursorMove(_, _, _) => "cursor-move"
    case Pong => "pong"
    case OtherEvent(k) => k
  }

  /** JavaScript truthiness of an optional string field. */
  predicate Truthy(s: Option<string>)
  {
    s.Some? && s.value != ""
  }
}

=== FILE: rooms.dfy ===
/** The room directory of server/rooms.js: a map from room id to the room's
    member set (in insertion order) and its path list. A room is created by
    the first join and deleted by the leave that empties it. */
module Rooms {
  import opened Wrappers
  import opened Strokes
  import opened Protocol
  import opened OrderedSets

  datatype Room = Room(users: seq<UserId>, paths: seq<Stroke>)

  type Directory = map<RoomId, Room>

  /** Every listed room has at least one member and lists no member twice. */
  predicate Valid(d: Directory)
  {
    forall r :: r in d ==> |d[r].users| > 0 && Distinct(d[r].users)
  }

  /** Whether `u` is listed as a member of room `r`. */
  predicate IsMember(d: Directory, r: RoomId, u: UserId)
  {
    r in d && u in d[r].users
  }

  /** `joinRoom`: creates the room with no members and no paths when it is
      absent, then adds the user to its member set. */
  function JoinRoom(d: Directory, roomId: RoomId, userId: UserId): (r: Directory)
    ensures r.Keys == d.Keys + {roomId}
    ensures roomId !in d ==> r[roomId] == Room([userId], [])
    ensures roomId in d ==> r[roomId].paths == d[roomId].paths
    ensures forall u :: IsMember(r, roomId, u) <==> IsMember(d, roomId, u) || u == userId
    ensures forall k :: k in d && k != roomId ==> r[k] == d[k]
    ensures forall k, u :: k != roomId ==> (IsMember(r, k, u) <==> IsMember(d, k, u))
    ensures Valid(d) ==> Valid(r)
  {
    var room := if roomId in d then d[roomId] else Room([], []);
    d[roomId := room.(users := Add(room.users, userId))]
  }

  /** The names every plain JavaScript object inherits from
      `Object.prototype`. rooms.js keeps its rooms in such an object, so
      looking one of these names up finds the inherited value, which is
      truthy, even when no room by that name exists. */
  const InheritedKeys: set<RoomId> := {
    "constructor", "__proto__", "toString", "toLocaleString", "valueOf",
    "hasOwnProperty", "isPrototypeOf", "propertyIsEnumerable",
    "__defineGetter__", "__defineSetter__", "__lookupGetter__", "__lookupSetter__"
  }

  /** `joinRoom` as rooms.js runs it. For an inherited name that is not a
      room, the existence test passes, so no room is created, and adding to
      the inherited value's missing `users` throws a TypeError (`None`).
      Every other join behaves as `JoinRoom`. */
  function JoinRoomAsWritten(d: Directory, roomId: RoomId, userId: UserId): (r: Option<Directory>)
    ensures r.None? <==> roomId in InheritedKeys && roomId !in d
    ensures r.Some? ==> r.value == JoinRoom(d, roomId, userId)
  {
    if roomId in InheritedKeys && roomId !in d then None else Some(JoinRoom(d, roomId, userId))
  }

  /** A room named `constructor` cannot be joined as written, while the
      directory keyed by name alone lists the joiner under it. */
  lemma PrototypeRoomNameThrows(d: Directory, userId: UserId)
    requires "constructor" !in d
    ensures JoinRoomAsWritten(d, "constructor", userId).None?
    ensures IsMember(JoinRoom(d, "constructor", userId), "constructor", userId)
  {
    assert "constructor" in InheritedKeys;
  }

  /** `leaveRoom`: removes the user from the room and deletes the room when
      that leaves it empty; an unknown room is left alone. */
  function LeaveRoom(d: Directory, roomId: RoomId, userId: UserId): (r: Directory)
    ensures roomId !in d ==> r == d
    ensures r.Keys <= d.Keys && d.Keys - {roomId} <= r.Keys
    ensures forall k :: k in d && k != roomId ==> r[k] == d[k]
    ensures roomId in d && Valid(d) ==>
      (roomId !in r <==> forall u :: u in d[roomId].users ==> u == userId)
    ensures roomId in r ==> r[roomId].paths == d[roomId].paths
    ensures roomId in d && (exists u :: u in d[roomId].users && u != userId) ==> roomId in r
    ensures forall u :: IsMember(r, roomId, u) <==> IsMember(d, roomId, u) && u != userId
    ensures forall k, u :: k != roomId ==> (IsMember(r, k, u) <==> IsMember(d, k, u))
    ensures Valid(d) ==> Valid(r)
  {
    if roomId !in d then d
    else
      var users := Delete(d[roomId].users, userId);
      if |users| == 0 then d - {roomId}
      else
        assert users[0] in d[roomId].users && users[0] != userId;
        d[roomId := d[roomId].(users := users)]
  }

  /** `getRoomUsers`: the members of a room, or the empty list for an
      unknown room. */
  function GetRoomUsers(d: Directory, roomId: RoomId): (r: seq<UserId>)
    ensures roomId !in d ==> r == []
    ensures forall u :: u in r <==> IsMember(d, roomId, u)
    ensures Valid(d) ==> Distinct(r)
  {
    if roomId !in d then [] else d[roomId].users
  }

  /** `addPathToRoom`: appends to an existing room's paths; an unknown room
      is left alone (and not created). */
  function AddPathToRoom(d: Directory, roomId: RoomId, path: Stroke): (r: Directory)
    ensures roomId !in d ==> r == d
    ensures r.Keys == d.Keys
    ensures forall k :: k in d && k != roomId ==> r[k] == d[k]
    ensures roomId in d ==> r[roomId].users == d[roomId].users
    ensures GetRoomUsers(r, roomId) == GetRoomUsers(d, roomId)
    ensures Valid(d) ==> Valid(r)
  {
    if roomId !in d then d
    else d[roomId := d[roomId].(paths := d[roomId].paths + [path])]
  }

  /** `getRoomPaths`: a room's paths, or the empty list for an unknown room. */
  function GetRoomPaths(d: Directory, roomId: RoomId): (r: seq<Stroke>)
    ensures roomId !in d ==> r == []
  {
    if roomId !in d then [] else d[roomId].paths
  }

  /** `getRoomPaths` after `addPathToRoom` on an existing room ends with the
      new path; on an unknown room it is still empty. */
  lemma PathsAfterAdd(d: Directory, roomId: RoomId, path: Stroke)
    ensures roomId in d ==> GetRoomPaths(AddPathToRoom(d, roomId, path), roomId) == GetRoomPaths(d, roomId) + [path]
    ensures roomId !in d ==> GetRoomPaths(AddPathToRoom(d, roomId, path), roomId) == []
  {
  }

  /** Joining a room on its first use lists exactly the joining user and
      no paths. */
  lemma JoinCreatesRoom(d: Directory, roomId: RoomId, userId: UserId)
    requires roomId !in d
    ensures GetRoomUsers(JoinRoom(d, roomId, userId), roomId) == [userId]
    ensures GetRoomPaths(JoinRoom(d, roomId, userId), roomId) == []
  {
  }

  /** A second join by the same user changes nothing. */
  lemma JoinIdempotent(d: Directory, roomId: RoomId, userId: UserId)
    ensures JoinRoom(JoinRoom(d, roomId, userId), roomId, userId) == JoinRoom(d, roomId, userId)
  {
  }

  /** A user who joins a room they were not in and then leaves it leaves the
      directory exactly as it was, including deleting a room the join
      created. */
  lemma JoinThenLeaveRestores(d: Directory, roomId: RoomId, userId: UserId)
    requires Valid(d)
    requires !IsMember(d, roomId, userId)
    ensures LeaveRoom(JoinRoom(d, roomId, userId), roomId, userId) == d
  {
    var j := JoinRoom(d, roomId, userId);
    if roomId in d {
      DeleteUndoesAdd(d[roomId].users, userId);
      assert Delete(j[roomId].users, userId) == d[roomId].users;
      assert |d[roomId].users| != 0;
      assert j[roomId := j[roomId].(users := d[roomId].users)] == d;
    } else {
      assert j - {roomId} == d;
    }
  }
}

=== FILE: server.dfy ===
/** The relay server of server/server.js: per-connection session records,
    the presence map, the connection counter and the room directory, with
    the broadcast filter, the `message` dispatch and the `close` teardown as
    pure transitions whose output is the list of (recipient, message)
    deliveries they cause. */
module Server {
  import opened Wrappers
  import opened Text
  import opened Protocol
  import Rooms
  import OrderedSets

  /** A connection as the server sees it: the id it was given, the room it
      is in, and whether its socket is OPEN. */
  datatype Conn = Conn(userId: UserId, roomId: RoomId, open: bool)

  /** One message handed to one connection's `send`. */
  datatype Delivery = Delivery(to: UserId, event: Event)

  /** `conns` is `wss.clients` in iteration order; `users` the presence map;
      `userCount` the connection counter; `rooms` the directory. */
  datatype ServerState = ServerState(conns: seq<Conn>, users: map<UserId, User>, userCount: nat, rooms: Rooms.Directory)

  function Initial(): ServerState
  {
    ServerState([], map[], 0, map[])
  }

  const DefaultRoom: RoomId := "main"

  /** The id of the `n`-th connection: `'user_' + n`. */
  function UserIdOf(n: nat): UserId
  {
    "user_" + Decimal(n)
  }

  /** The display name of the `n`-th connection: `'User ' + n`. */
  function DisplayNameOf(n: nat): string
  {
    "User " + Decimal(n)
  }

  /** Connection ids are never reused: different counter values give
      different ids. */
  lemma UserIdInjective(a: nat, b: nat)
    ensures UserIdOf(a) == UserIdOf(b) <==> a == b
  {
    PrefixCancels("user_", Decimal(a), Decimal(b));
    DecimalInjective(a, b);
  }

  function Lookup(users: map<UserId, User>, id: UserId): Option<User>
  {
    if id in users then Some(users[id]) else None
  }

  /** The `broadcast` filter: the socket is OPEN, it is in the target room,
      and it is not the excluded user. */
  predicate IsRecipient(c: Conn, roomId: RoomId, exclude: Option<UserId>)
  {
    c.open && c.roomId == roomId && (exclude.None? || c.userId != exclude.value)
  }

  predicate DistinctIds(conns: seq<Conn>)
  {
    forall i, j :: 0 <= i < j < |conns| ==> conns[i].userId != conns[j].userId
  }

  /** `broadcast(data, roomId, excludeUserId)`: one delivery per recipient
      connection, in connection order. A recipient whose `send` throws (one
      in `failing`) gets nothing, and delivery goes on to the rest. */
  function Broadcast(conns: seq<Conn>, event: Event, roomId: RoomId, exclude: Option<UserId>, failing: set<UserId>): (out: seq<Delivery>)
    ensures |out| <= |conns|
    ensures forall d :: d in out ==> d.event == event && d.to !in failing
    ensures forall u :: Delivery(u, event) in out <==>
      exists i :: 0 <= i < |conns| && conns[i].userId == u && IsRecipient(conns[i], roomId, exclude) && u !in failing
    ensures DistinctIds(conns) ==> forall i, j :: 0 <= i < j < |out| ==> out[i].to != out[j].to
    decreases |conns|
  {
    if |conns| == 0 then []
    else
      var prefix := conns[..|conns| - 1];
      var c := conns[|conns| - 1];
      var rest := Broadcast(prefix, event, roomId, exclude, failing);
      assert forall i :: 0 <= i < |prefix| ==> prefix[i] == conns[i];
      if IsRecipient(c, roomId, exclude) && c.userId !in failing then
        assert DistinctIds(conns) ==> forall d :: d in rest ==> d.to != c.userId;
        rest + [Delivery(c.userId, event)]
      else rest
  }

  /** The server's `getRoomUsers`: the presence record of every connection
      whose room matches and which has one. The socket need not be OPEN. */
  function GetRoomUsers(conns: seq<Conn>, users: map<UserId, User>, roomId: RoomId): (r: map<UserId, User>)
    ensures forall u :: u in r <==>
      u in users && exists i :: 0 <= i < |conns| && conns[i].userId == u && conns[i].roomId == roomId
    ensures forall u :: u in r ==> r[u] == users[u]
    decreases |conns|
  {
    if |conns| == 0 then map[]
    else
      var prefix := conns[..|conns| - 1];
      var c := conns[|conns| - 1];
      var rest := GetRoomUsers(prefix, users, roomId);
      assert forall i :: 0 <= i < |prefix| ==> prefix[i] == conns[i];
      if c.roomId == roomId && c.userId in users then rest[c.userId := users[c.userId]] else rest
  }

  /** `id` is one the counter has handed out, once it reached `count`. */
  ghost predicate Issued(id: UserId, count: nat)
  {
    exists n :: 1 <= n <= count && id == UserIdOf(n)
  }

  predicate HasConn(conns: seq<Conn>, u: UserId)
  {
    exists i :: 0 <= i < |conns| && conns[i].userId == u
  }

  predicate ConnInRoom(conns: seq<Conn>, u: UserId, r: RoomId)
  {
    exists i :: 0 <= i < |conns| && conns[i].userId == u && conns[i].roomId == r
  }

  /** What the server keeps true between events: connection ids are
      distinct and each was issued by the counter; exactly the connected
      users have a presence record; the directory is well formed and lists
      a user only under the room their connection is in. */
  ghost predicate Valid(s: ServerState)
  {
    DistinctIds(s.conns) && IdsIssued(s) && UsersMatch(s) && RoomsMatch(s)
  }

  ghost predicate IdsIssued(s: ServerState)
  {
    forall i :: 0 <= i < |s.conns| ==> Issued(s.conns[i].userId, s.userCount)
  }

  ghost predicate UsersMatch(s: ServerState)
  {
    && (forall u :: u in s.users <==> HasConn(s.conns, u))
    && (forall u :: u in s.users ==> s.users[u].id == u)
  }

  ghost predicate RoomsMatch(s: ServerState)
  {
    && Rooms.Valid(s.rooms)
    && (forall r, u :: Rooms.IsMember(s.rooms, r, u) ==> ConnInRoom(s.conns, u, r))
  }

  /** No user is ever listed in two rooms at once. */
  lemma OneRoomPerUser(s: ServerState, u: UserId, r1: RoomId, r2: RoomId)
    requires Valid(s)
    requires Rooms.IsMember(s.rooms, r1, u) && Rooms.IsMember(s.rooms, r2, u)
    ensures r1 == r2
  {
    var i :| 0 <= i < |s.conns| && s.conns[i].userId == u && s.conns[i].roomId == r1;
    var j :| 0 <= j < |s.conns| && s.conns[j].userId == u && s.conns[j].roomId == r2;
    assert i == j;
  }

  /** A new connection: the counter goes up by one and names it
      `user_<n>` / `User <n>`; it starts OPEN in room `main`, which it does
      not join in the directory until it sends `join`. The colour is random
      in the source and a parameter here. */
  function Connect(s: ServerState, color: string): (r: (ServerState, UserId))
    ensures r.0.userCount == s.userCount + 1
    ensures r.1 == UserIdOf(r.0.userCount)
    ensures r.0.users == s.users[r.1 := User(r.1, DisplayNameOf(r.0.userCount), color)]
    ensures r.0.conns == s.conns + [Conn(r.1, DefaultRoom, true)]
    ensures r.0.rooms == s.rooms
    ensures Valid(s) ==> !HasConn(s.conns, r.1) && Valid(r.0)
  {
    var n := s.userCount + 1;
    var id := UserIdOf(n);
    var r := ServerState(s.conns + [Conn(id, DefaultRoom, true)], s.users[id := User(id, DisplayNameOf(n), color)], n, s.rooms);
    ConnectKeepsValid(s, r, id);
    (r, id)
  }

  lemma ConnectKeepsValid(s: ServerState, r: ServerState, id: UserId)
    requires id == UserIdOf(s.userCount + 1)
    requires r.conns == s.conns + [Conn(id, DefaultRoom, true)] && r.userCount == s.userCount + 1 && r.rooms == s.rooms
    requires id in r.users && r.users[id].id == id && r.users == s.users[id := r.users[id]]
    ensures Valid(s) ==> !HasConn(s.conns, id) && Valid(r)
  {
    if Valid(s) {
      ConnectIdIsFresh(s, id);
      ConnectIdsIssued(s, r, id);
      ConnectUsersMatch(s, r, id);
      forall r0, u | Rooms.IsMember(r.rooms, r0, u) ensures ConnInRoom(r.conns, u, r0) {
        var i :| 0 <= i < |s.conns| && s.conns[i].userId == u && s.conns[i].roomId == r0;
        assert r.conns[i] == s.conns[i];
      }
    }
  }

  lemma ConnectIdIsFresh(s: ServerState, id: UserId)
    requires Valid(s) && id == UserIdOf(s.userCount + 1)
    ensures !HasConn(s.conns, id)
  {
    if HasConn(s.conns, id) {
      var i :| 0 <= i < |s.conns| && s.conns[i].userId == id;
      var n :| 1 <= n <= s.userCount && s.conns[i].userId == UserIdOf(n);
      UserIdInjective(n, s.userCount + 1);
    }
  }

  lemma ConnectIdsIssued(s: ServerState, r: ServerState, id: UserId)
    requires Valid(s) && id == UserIdOf(s.userCount + 1)
    requires r.conns == s.conns + [Conn(id, DefaultRoom, true)] && r.userCount == s.userCount + 1
    ensures DistinctIds(r.conns)
    ensures forall i :: 0 <= i < |r.conns| ==> Issued(r.conns[i].userId, r.userCount)
  {
    ConnectIdIsFresh(s, id);
    forall i | 0 <= i < |r.conns|
      ensures Issued(r.conns[i].userId, r.userCount)
    {
      if i < |s.conns| {
        assert r.conns[i] == s.conns[i];
        var n :| 1 <= n <= s.userCount && s.conns[i].userId == UserIdOf(n);
        assert 1 <= n <= r.userCount && r.conns[i].userId == UserIdOf(n);
      } else {
        assert r.conns[i].userId == UserIdOf(r.userCount);
      }
    }
    forall i, j | 0 <= i < j < |r.conns| ensures r.conns[i].userId != r.conns[j].userId {
      if j == |s.conns| {
        assert r.conns[i] == s.conns[i];
        assert !HasConn(s.conns, id);
      }
    }
  }

  lemma ConnectUsersMatch(s: ServerState, r: ServerState, id: UserId)
    requires Valid(s)
    requires r.conns == s.conns + [Conn(id, DefaultRoom, true)]
    requires id in r.users && r.users[id].id == id && r.users == s.users[id := r.users[id]]
    ensures forall u :: u in r.users <==> HasConn(r.conns, u)
    ensures forall u :: u in r.users ==> r.users[u].id == u
  {
    forall u ensures u in r.users <==> HasConn(r.conns, u) {
      if u in r.users && u != id {
        assert u in s.users;
        var i :| 0 <= i < |s.conns| && s.conns[i].userId == u;
        assert r.conns[i].userId == u;
      }
      if HasConn(r.conns, u) && u != id {
        var i :| 0 <= i < |r.conns| && r.conns[i].userId == u;
        assert s.conns[i].userId == u;
        assert HasConn(s.conns, u);
      }
      if u == id {
        assert r.conns[|s.conns|].userId == id;
      }
    }
  }

  /** The message a relay type is forwarded as: the payload the client sent
      and the sender's server-assigned id. `None` for every other type. */
  function RelayOf(req: Request, id: UserId): Option<Event>
  {
    match req
    case DrawPathReq(path, _, _) => Some(DrawPath(path, id))
    case UndoReq(_, _) => Some(Undo(id))
    case RedoReq(_, _) => Some(Redo(id))
    case CursorMoveReq(x, y, _, _) => Some(CursorMove(x, y, id))
    case ClearCanvasReq(_, _) => Some(ClearCanvas(id))
    case _ => None
  }

  /** The types the dispatch falls through to `default` on. */
  predicate Ignored(req: Request)
  {
    req.DrawingStartReq? || req.RenameUserReq? || req.OtherReq?
  }

  /** What moving user `id` from room `prev` to room `room` leaves alone in
      the directory: every other user's memberships, the set of rooms apart
      from the new room appearing and the old one closing, and the drawing
      history of every surviving room. The one exception is a lone member
      re-joining their own room: leaving closes it, so the join recreates it
      with no paths. With anyone else still in it, a re-join keeps them. */
  ghost predicate MoveFrame(before: Rooms.Directory, after: Rooms.Directory, id: UserId, prev: RoomId, room: RoomId)
  {
    && (forall r0, u :: u != id ==> (Rooms.IsMember(after, r0, u) <==> Rooms.IsMember(before, r0, u)))
    && room in after
    && after.Keys <= before.Keys + {room}
    && before.Keys - {prev} <= after.Keys
    && (forall r0 :: r0 in before && r0 in after
          && (r0 != prev || prev != room || exists u :: u in before[prev].users && u != id)
          ==> after[r0].paths == before[r0].paths)
    && (room !in before ==> after[room].paths == [])
  }

  /** The room move of a `join`: leave the current room in the directory,
      record the new room on the connection, join the new room. */
  function MoveToRoom(s: ServerState, i: nat, room: RoomId): (r: ServerState)
    requires i < |s.conns|
    ensures r.conns == s.conns[i := s.conns[i].(roomId := room)]
    ensures r.users == s.users && r.userCount == s.userCount
    ensures MoveFrame(s.rooms, r.rooms, s.conns[i].userId, s.conns[i].roomId, room)
    ensures Valid(s) ==> Valid(r)
    ensures Valid(s) ==> forall r0 :: Rooms.IsMember(r.rooms, r0, s.conns[i].userId) <==> r0 == room
  {
    var c := s.conns[i];
    var r := s.(conns := s.conns[i := c.(roomId := room)],
                rooms := Rooms.JoinRoom(Rooms.LeaveRoom(s.rooms, c.roomId, c.userId), room, c.userId));
    MoveKeepsValid(s, r, i, room);
    MoveKeepsFrame(s.rooms, c.userId, c.roomId, room);
    r
  }

  /** The directory effect of a move satisfies `MoveFrame`. */
  lemma MoveKeepsFrame(d: Rooms.Directory, id: UserId, prev: RoomId, room: RoomId)
    ensures MoveFrame(d, Rooms.JoinRoom(Rooms.LeaveRoom(d, prev, id), room, id), id, prev, room)
  {
    var left := Rooms.LeaveRoom(d, prev, id);
    MoveKeepsOthers(d, left, Rooms.JoinRoom(left, room, id), id, prev, room);
    MoveKeepsPaths(d, left, Rooms.JoinRoom(left, room, id), id, prev, room);
  }

  /** A move changes no other user's memberships. */
  lemma MoveKeepsOthers(d: Rooms.Directory, left: Rooms.Directory, after: Rooms.Directory, id: UserId, prev: RoomId, room: RoomId)
    requires left == Rooms.LeaveRoom(d, prev, id) && after == Rooms.JoinRoom(left, room, id)
    ensures forall r0, u :: u != id ==> (Rooms.IsMember(after, r0, u) <==> Rooms.IsMember(d, r0, u))
  {
    forall r0, u | u != id ensures Rooms.IsMember(after, r0, u) <==> Rooms.IsMember(d, r0, u) {
      assert Rooms.IsMember(after, r0, u) <==> Rooms.IsMember(left, r0, u);
    }
  }

  /** A move keeps the paths of every room that survives it, unless a lone
      member re-joined it. */
  lemma MoveKeepsPaths(d: Rooms.Directory, left: Rooms.Directory, after: Rooms.Directory, id: UserId, prev: RoomId, room: RoomId)
    requires left == Rooms.LeaveRoom(d, prev, id) && after == Rooms.JoinRoom(left, room, id)
    ensures forall r0 ::
              r0 in d && r0 in after && (r0 != prev || prev != room || exists u :: u in d[prev].users && u != id)
              ==> after[r0].paths == d[r0].paths
  {
    forall r0 | r0 in d && r0 in after && (r0 != prev || prev != room || exists u :: u in d[prev].users && u != id)
      ensures after[r0].paths == d[r0].paths
    {
      assert r0 in left;
      assert left[r0].paths == d[r0].paths;
    }
  }

  lemma MoveKeepsValid(s: ServerState, r: ServerState, i: nat, room: RoomId)
    requires i < |s.conns|
    requires r == s.(conns := s.conns[i := s.conns[i].(roomId := room)],
                     rooms := Rooms.JoinRoom(Rooms.LeaveRoom(s.rooms, s.conns[i].roomId, s.conns[i].userId), room, s.conns[i].userId))
    ensures Valid(s) ==> Valid(r)
    ensures Valid(s) ==> forall r0 :: Rooms.IsMember(r.rooms, r0, s.conns[i].userId) <==> r0 == room
  {
    if Valid(s) {
      var id := s.conns[i].userId;
      var prev := s.conns[i].roomId;
      var left := Rooms.LeaveRoom(s.rooms, prev, id);
      assert forall j :: 0 <= j < |s.conns| ==> r.conns[j].userId == s.conns[j].userId;
      assert forall u :: HasConn(r.conns, u) <==> HasConn(s.conns, u) by {
        forall u ensures HasConn(r.conns, u) <==> HasConn(s.conns, u) {
          if HasConn(s.conns, u) {
            var j :| 0 <= j < |s.conns| && s.conns[j].userId == u;
            assert r.conns[j].userId == u;
          }
        }
      }
      forall r0 ensures !Rooms.IsMember(left, r0, id) {
        if r0 != prev && Rooms.IsMember(s.rooms, r0, id) {
          OneRoomPerUserAt(s, i, r0);
        }
      }
      forall r0, u | Rooms.IsMember(r.rooms, r0, u) ensures ConnInRoom(r.conns, u, r0) {
        if u == id {
          assert r.conns[i].userId == u && r.conns[i].roomId == r0;
        } else {
          assert Rooms.IsMember(left, r0, u);
          assert Rooms.IsMember(s.rooms, r0, u);
          var j :| 0 <= j < |s.conns| && s.conns[j].userId == u && s.conns[j].roomId == r0;
          assert r.conns[j] == s.conns[j];
        }
      }
    }
  }

  /** A lone member who sends `join` for the room they are already in closes
      it on the way out, so it comes back with an empty drawing history. */
  lemma RejoinAloneClearsRoom(s: ServerState, i: nat)
    requires i < |s.conns|
    requires s.conns[i].roomId in s.rooms && s.rooms[s.conns[i].roomId].users == [s.conns[i].userId]
    ensures MoveToRoom(s, i, s.conns[i].roomId).rooms[s.conns[i].roomId] == Rooms.Room([s.conns[i].userId], [])
  {
    var c := s.conns[i];
    assert OrderedSets.Delete([c.userId], c.userId) == [];
    assert c.roomId !in Rooms.LeaveRoom(s.rooms, c.roomId, c.userId);
  }

  /** With someone else still in it, re-joining one's own room keeps the
      room and its drawing history. */
  lemma RejoinWithOthersKeepsPaths(s: ServerState, i: nat, other: UserId)
    requires i < |s.conns| && s.conns[i].roomId in s.rooms
    requires other in s.rooms[s.conns[i].roomId].users && other != s.conns[i].userId
    ensures MoveToRoom(s, i, s.conns[i].roomId).rooms[s.conns[i].roomId].paths == s.rooms[s.conns[i].roomId].paths
  {
    var r := MoveToRoom(s, i, s.conns[i].roomId);
    assert MoveFrame(s.rooms, r.rooms, s.conns[i].userId, s.conns[i].roomId, s.conns[i].roomId);
  }

  /** Under the invariant, a user is a directory member only of the room
      their own connection is in. */
  lemma OneRoomPerUserAt(s: ServerState, i: nat, r0: RoomId)
    requires Valid(s) && i < |s.conns|
    requires Rooms.IsMember(s.rooms, r0, s.conns[i].userId)
    ensures r0 == s.conns[i].roomId
  {
    var j :| 0 <= j < |s.conns| && s.conns[j].userId == s.conns[i].userId && s.conns[j].roomId == r0;
    assert i == j;
  }

  /** The `join` branch of the dispatch. With a truthy `roomId` the
      connection moves to that room; either way `init` (the room's presence
      snapshot) goes to the sender and `user-joined` to the whole room,
      sender included. A throwing `init` send skips the announcement. */
  function HandleJoin(s: ServerState, i: nat, roomId: Option<string>, failing: set<UserId>): (r: (ServerState, seq<Delivery>))
    requires i < |s.conns|
    ensures var id := s.conns[i].userId;
      var room := if Truthy(roomId) then roomId.value else s.conns[i].roomId;
      && (!Truthy(roomId) ==> r.0 == s)
      && r.0.conns == s.conns[i := s.conns[i].(roomId := room)]
      && r.0.users == s.users && r.0.userCount == s.userCount
      && (id in failing ==> r.1 == [])
      && (id !in failing ==>
            r.1 == [Delivery(id, Init(id, GetRoomUsers(r.0.conns, s.users, room)))]
                   + Broadcast(r.0.conns, UserJoined(id, Lookup(s.users, id)), room, None, failing))
      && (Valid(s) && Truthy(roomId) ==> forall r0 :: Rooms.IsMember(r.0.rooms, r0, id) <==> r0 == room)
    ensures Truthy(roomId) ==> MoveFrame(s.rooms, r.0.rooms, s.conns[i].userId, s.conns[i].roomId, roomId.value)
    ensures Valid(s) ==> Valid(r.0)
  {
    var c := s.conns[i];
    var id := c.userId;
    var s1 := if Truthy(roomId) then MoveToRoom(s, i, roomId.value) else s;
    assert !Truthy(roomId) ==> s1.conns == s.conns[i := c.(roomId := c.roomId)];
    var room := s1.conns[i].roomId;
    if id in failing then (s1, [])
    else
      var snapshot := GetRoomUsers(s1.conns, s1.users, room);
      (s1, [Delivery(id, Init(id, snapshot))] + Broadcast(s1.conns, UserJoined(id, Lookup(s1.users, id)), room, None, failing))
  }

  /** The `message` handler of connection `i`. Unparseable text and types
      outside the dispatch produce nothing; `join` is `HandleJoin`; `ping`
      answers `pong` to the sender only; the five relay types are broadcast
      to the sender's room with no exclusion, under the sender's
      server-assigned id. */
  function HandleMessage(s: ServerState, i: nat, frame: Frame<Request>, failing: set<UserId>): (r: (ServerState, seq<Delivery>))
    requires i < |s.conns|
    ensures frame.Garbled? ==> r == (s, [])
    ensures frame.Parsed? && Ignored(frame.msg) ==> r == (s, [])
    ensures frame.Parsed? && !frame.msg.JoinReq? ==> r.0 == s
    ensures frame.Parsed? && frame.msg.PingReq? ==>
      r.1 == if s.conns[i].userId in failing then [] else [Delivery(s.conns[i].userId, Pong)]
    ensures frame.Parsed? && RelayOf(frame.msg, s.conns[i].userId).Some? ==>
      r.1 == Broadcast(s.conns, RelayOf(frame.msg, s.conns[i].userId).value, s.conns[i].roomId, None, failing)
    ensures frame.Parsed? && frame.msg.JoinReq? ==> r == HandleJoin(s, i, frame.msg.roomId, failing)
    ensures Valid(s) ==> Valid(r.0)
  {
    var id := s.conns[i].userId;
    var room := s.conns[i].roomId;
    match frame
    case Garbled => (s, [])
    case Parsed(req) =>
      match req
      case JoinReq(roomId) => HandleJoin(s, i, roomId, failing)
      case PingReq => (s, if id in failing then [] else [Delivery(id, Pong)])
      case DrawPathReq(path, _, _) => (s, Broadcast(s.conns, DrawPath(path, id), room, None, failing))
      case UndoReq(_, _) => (s, Broadcast(s.conns, Undo(id), room, None, failing))
      case RedoReq(_, _) => (s, Broadcast(s.conns, Redo(id), room, None, failing))
      case CursorMoveReq(x, y, _, _) => (s, Broadcast(s.conns, CursorMove(x, y, id), room, None, failing))
      case ClearCanvasReq(_, _) => (s, Broadcast(s.conns, ClearCanvas(id), room, None, failing))
      case DrawingStartReq(_, _) => (s, [])
      case RenameUserReq(_, _, _) => (s, [])
      case OtherReq(_) => (s, [])
  }

  /** The `close` handler of connection `i`. The socket library has already
      dropped the connection from `wss.clients`; the handler removes the
      user from its room in the directory and from the presence map, then
      announces `user-left` to the room it was in. */
  function HandleClose(s: ServerState, i: nat, failing: set<UserId>): (r: (ServerState, seq<Delivery>))
    requires i < |s.conns|
    ensures r.0.conns == s.conns[..i] + s.conns[i + 1..]
    ensures r.0.users == s.users - {s.conns[i].userId}
    ensures r.0.userCount == s.userCount
    ensures r.0.rooms == Rooms.LeaveRoom(s.rooms, s.conns[i].roomId, s.conns[i].userId)
    ensures r.1 == Broadcast(r.0.conns, UserLeft(s.conns[i].userId), s.conns[i].roomId, None, failing)
    ensures Valid(s) ==> Valid(r.0)
    ensures Valid(s) ==>
      && !HasConn(r.0.conns, s.conns[i].userId)
      && (forall r0 :: !Rooms.IsMember(r.0.rooms, r0, s.conns[i].userId))
      && (forall d :: d in r.1 ==> d.to != s.conns[i].userId)
  {
    var c := s.conns[i];
    var r := ServerState(s.conns[..i] + s.conns[i + 1..], s.users - {c.userId}, s.userCount,
                         Rooms.LeaveRoom(s.rooms, c.roomId, c.userId));
    CloseKeepsValid(s, r, i);
    (r, Broadcast(r.conns, UserLeft(c.userId), c.roomId, None, failing))
  }

  lemma CloseKeepsValid(s: ServerState, r: ServerState, i: nat)
    requires i < |s.conns|
    requires r == ServerState(s.conns[..i] + s.conns[i + 1..], s.users - {s.conns[i].userId}, s.userCount,
                              Rooms.LeaveRoom(s.rooms, s.conns[i].roomId, s.conns[i].userId))
    ensures Valid(s) ==> Valid(r)
    ensures Valid(s) ==>
      && !HasConn(r.conns, s.conns[i].userId)
      && forall r0 :: !Rooms.IsMember(r.rooms, r0, s.conns[i].userId)
  {
    if Valid(s) {
      CloseKeepsIds(s, r, i);
      CloseKeepsUsers(s, r, i);
      CloseKeepsRooms(s, r, i);
    }
  }

  lemma CloseKeepsUsers(s: ServerState, r: ServerState, i: nat)
    requires DistinctIds(s.conns) && UsersMatch(s) && i < |s.conns|
    requires r.conns == s.conns[..i] + s.conns[i + 1..] && r.users == s.users - {s.conns[i].userId}
    ensures UsersMatch(r)
  {
    RemoveConn(s.conns, i, r.conns);
  }

  /** Removing connection `i` from a list with distinct ids removes exactly
      that connection's user from the users with a connection. */
  lemma RemoveConn(conns: seq<Conn>, i: nat, rest: seq<Conn>)
    requires DistinctIds(conns) && i < |conns|
    requires rest == conns[..i] + conns[i + 1..]
    ensures forall u :: HasConn(rest, u) <==> HasConn(conns, u) && u != conns[i].userId
  {
    forall u | HasConn(conns, u) && u != conns[i].userId ensures HasConn(rest, u) {
      var j :| 0 <= j < |conns| && conns[j].userId == u;
      if j < i {
        assert rest[j] == conns[j];
      } else {
        assert rest[j - 1] == conns[j];
      }
    }
    forall u | HasConn(rest, u) ensures HasConn(conns, u) && u != conns[i].userId {
      var k :| 0 <= k < |rest| && rest[k].userId == u;
      var j := if k < i then k else k + 1;
      assert rest[k] == conns[j];
    }
  }

  lemma CloseKeepsRooms(s: ServerState, r: ServerState, i: nat)
    requires Valid(s) && i < |s.conns|
    requires r.conns == s.conns[..i] + s.conns[i + 1..]
    requires r.rooms == Rooms.LeaveRoom(s.rooms, s.conns[i].roomId, s.conns[i].userId)
    ensures forall r0 :: !Rooms.IsMember(r.rooms, r0, s.conns[i].userId)
    ensures forall r0, u :: Rooms.IsMember(r.rooms, r0, u) ==> ConnInRoom(r.conns, u, r0)
  {
    var id := s.conns[i].userId;
    forall r0 ensures !Rooms.IsMember(r.rooms, r0, id) {
      if r0 != s.conns[i].roomId && Rooms.IsMember(s.rooms, r0, id) {
        OneRoomPerUserAt(s, i, r0);
      }
    }
    forall r0, u | Rooms.IsMember(r.rooms, r0, u) ensures ConnInRoom(r.conns, u, r0) {
      assert u != id;
      assert Rooms.IsMember(s.rooms, r0, u);
      var j :| 0 <= j < |s.conns| && s.conns[j].userId == u && s.conns[j].roomId == r0;
      assert j != i;
      var k := if j < i then j else j - 1;
      assert r.conns[k] == s.conns[j];
    }
  }

  /** Removing a connection keeps the ids distinct and issued, and its id
      is gone. */
  lemma CloseKeepsIds(s: ServerState, r: ServerState, i: nat)
    requires Valid(s) && i < |s.conns|
    requires r.conns == s.conns[..i] + s.conns[i + 1..] && r.userCount == s.userCount
    ensures DistinctIds(r.conns)
    ensures forall k :: 0 <= k < |r.conns| ==> Issued(r.conns[k].userId, r.userCount)
    ensures !HasConn(r.conns, s.conns[i].userId)
  {
    assert forall k :: 0 <= k < |r.conns| ==> r.conns[k] == s.conns[if k < i then k else k + 1];
    forall k | 0 <= k < |r.conns|
      ensures Issued(r.conns[k].userId, r.userCount)
    {
      var j := if k < i then k else k + 1;
      assert r.conns[k] == s.conns[j];
      var n :| 1 <= n <= s.userCount && s.conns[j].userId == UserIdOf(n);
    }
  }

  /** The peer starts closing connection `i`: its socket leaves the OPEN
      state (so broadcasts skip it) while it is still listed. */
  function SocketClosing(s: ServerState, i: nat): (r: ServerState)
    requires i < |s.conns|
    ensures |r.conns| == |s.conns| && !r.conns[i].open
    ensures forall j :: 0 <= j < |s.conns| && j != i ==> r.conns[j] == s.conns[j]
    ensures r.conns[i].userId == s.conns[i].userId && r.conns[i].roomId == s.conns[i].roomId
    ensures r.users == s.users && r.rooms == s.rooms && r.userCount == s.userCount
    ensures Valid(s) ==> Valid(r)
  {
    var r := s.(conns := s.conns[i := s.conns[i].(open := false)]);
    assert forall j :: 0 <= j < |s.conns| ==> r.conns[j].userId == s.conns[j].userId && r.conns[j].roomId == s.conns[j].roomId;
    assert forall u :: HasConn(r.conns, u) <==> HasConn(s.conns, u) by {
      forall u ensures HasConn(r.conns, u) <==> HasConn(s.conns, u) {
        if HasConn(s.conns, u) {
          var j :| 0 <= j < |s.conns| && s.conns[j].userId == u;
          assert r.conns[j].userId == u;
        }
      }
    }
    assert forall u, r0 :: ConnInRoom(r.conns, u, r0) <==> ConnInRoom(s.conns, u, r0) by {
      forall u, r0 ensures ConnInRoom(r.conns, u, r0) <==> ConnInRoom(s.conns, u, r0) {
        if ConnInRoom(s.conns, u, r0) {
          var j :| 0 <= j < |s.conns| && s.conns[j].userId == u && s.conns[j].roomId == r0;
          assert r.conns[j].userId == u && r.conns[j].roomId == r0;
        }
      }
    }
    r
  }

  /** A request with the client-supplied `userId` / `roomId` fields blanked. */
  function Unclaimed(req: Request): Request
  {
    match req
    case DrawPathReq(path, _, _) => DrawPathReq(path, "", "")
    case UndoReq(_, _) => UndoReq("", "")
    case RedoReq(_, _) => RedoReq("", "")
    case ClearCanvasReq(_, _) => ClearCanvasReq("", "")
    case CursorMoveReq(x, y, _, _) => CursorMoveReq(x, y, "", "")
    case DrawingStartReq(_, _) => DrawingStartReq("", "")
    case RenameUserReq(_, _, n) => RenameUserReq("", "", n)
    case _ => req
  }

  /** The server never trusts the `userId` or `roomId` a client puts in a
      message: relays carry the connection's own id to the connection's own
      room, whatever the message claims. */
  lemma ClaimsIgnored(s: ServerState, i: nat, req: Request, failing: set<UserId>)
    requires i < |s.conns|
    ensures HandleMessage(s, i, Parsed(req), failing) == HandleMessage(s, i, Parsed(Unclaimed(req)), failing)
  {
  }

  /** A relayed message reaches exactly the OPEN connections in the
      sender's room whose send does not throw, the sender included: the
      sender gets its own echo. */
  lemma RelayFanOut(s: ServerState, i: nat, req: Request, failing: set<UserId>, j: nat)
    requires i < |s.conns| && j < |s.conns| && DistinctIds(s.conns)
    requires RelayOf(req, s.conns[i].userId).Some?
    ensures var out := HandleMessage(s, i, Parsed(req), failing).1;
      var event := RelayOf(req, s.conns[i].userId).value;
      Delivery(s.conns[j].userId, event) in out <==>
        s.conns[j].open && s.conns[j].roomId == s.conns[i].roomId && s.conns[j].userId !in failing
  {
    var event := RelayOf(req, s.conns[i].userId).value;
    var out := HandleMessage(s, i, Parsed(req), failing).1;
    if Delivery(s.conns[j].userId, event) in out {
      var k :| 0 <= k < |s.conns| && s.conns[k].userId == s.conns[j].userId
        && IsRecipient(s.conns[k], s.conns[i].roomId, None) && s.conns[j].userId !in failing;
      assert k == j;
    }
  }

  /** A connection that joins one room and then another is listed only
      under the second, and its connection record says so. */
  lemma SecondJoinLeavesFirstRoom(s: ServerState, i: nat, r1: RoomId, r2: RoomId, failing: set<UserId>)
    requires Valid(s) && i < |s.conns|
    requires r1 != "" && r2 != "" && r1 != r2
    ensures var s1 := HandleMessage(s, i, Parsed(JoinReq(Some(r1))), failing).0;
      var s2 := HandleMessage(s1, i, Parsed(JoinReq(Some(r2))), failing).0;
      && !Rooms.IsMember(s2.rooms, r1, s.conns[i].userId)
      && Rooms.IsMember(s2.rooms, r2, s.conns[i].userId)
      && s2.conns[i].roomId == r2
  {
  }

  /** After `close`, nothing addressed to the closed connection is sent,
      and its user is gone from the presence map and from every room. */
  lemma CloseForgetsUser(s: ServerState, i: nat, failing: set<UserId>)
    requires Valid(s) && i < |s.conns|
    ensures var (s1, out) := HandleClose(s, i, failing);
      var id := s.conns[i].userId;
      && id !in s1.users
      && (forall r0 :: id !in Rooms.GetRoomUsers(s1.rooms, r0))
      && (forall d :: d in out ==> d.to != id && d.event == UserLeft(id))
  {
  }
}

=== FILE: strokes.dfy ===
/** The drawing vocabulary: points, the toolbar's pen style and a stroke
    (a "path" in the source). Coordinates are opaque to every operation the
    model covers, so they are plain integers here. */
module Strokes {

  datatype Point = Point(x: int, y: int)

  /** The toolbar's current pen: colour, width and eraser mode. */
  datatype Style = Style(color: string, width: int, erasing: bool)

  /** One freehand mark: the pen it was drawn with, its points in drawing
      order, and the creation time stamp (supplied by the caller). */
  datatype Stroke = Stroke(color: string, width: int, erasing: bool, points: seq<Point>, timestamp: int)
}

=== FILE: text.dfy ===
/** String helpers the system relies on: the decimal rendering of the
    connection counter (used to build `user_N` ids and `User N` names) and
    JavaScript's `String.prototype.trim`. */
module Text {

  /** The character of a single decimal digit. */
  function DigitChar(d: nat): (c: char)
    requires d < 10
    ensures '0' <= c <= '9'
  {
    (48 + d) as char
  }

  /** Decimal rendering of a natural number, as JavaScript's string
      concatenation `'user_' + n` produces it (no leading zeros). */
  function Decimal(n: nat): (s: string)
    ensures 1 <= |s|
    ensures forall i :: 0 <= i < |s| ==> '0' <= s[i] <= '9'
    ensures n < 10 <==> |s| == 1
  {
    if n < 10 then [DigitChar(n)] else Decimal(n / 10) + [DigitChar(n % 10)]
  }

  /** Reads a string of decimal digits back into a number; the reference
      definition that `Decimal` inverts. */
  function ParseDecimal(s: string): nat
  {
    if |s| == 0 then 0
    else
      var d := s[|s| - 1] as int - 48;
      ParseDecimal(s[..|s| - 1]) * 10 + (if 0 <= d then d else 0)
  }

  /** Parsing a rendered number gives the number back. */
  lemma {:induction false} DecimalRoundTrip(n: nat)
    ensures ParseDecimal(Decimal(n)) == n
  {
    if n >= 10 {
      var s := Decimal(n);
      assert s[..|s| - 1] == Decimal(n / 10);
      DecimalRoundTrip(n / 10);
    }
  }

  /** Distinct numbers render to distinct strings. */
  lemma DecimalInjective(a: nat, b: nat)
    ensures Decimal(a) == Decimal(b) <==> a == b
  {
    if Decimal(a) == Decimal(b) {
      DecimalRoundTrip(a);
      DecimalRoundTrip(b);
    }
  }

  /** Prefixing two strings with the same text keeps them apart. */
  lemma PrefixCancels(p: string, x: string, y: string)
    ensures p + x == p + y <==> x == y
  {
    if p + x == p + y {
      assert x == (p + x)[|p|..];
      assert y == (p + y)[|p|..];
    }
  }

  /** The characters JavaScript's `trim` removes: the WhiteSpace and
      LineTerminator productions of ECMAScript (TAB, VT, FF, SP, NBSP,
      ZWNBSP, the Zs category, LF, CR, LS, PS). */
  predicate IsWhitespace(c: char)
  {
    || c == '\t' || c == '\U{000B}' || c == '\U{000C}' || c == ' ' || c == '\U{00A0}' || c == '\U{FEFF}'
    || c == '\U{1680}' || '\U{2000}' <= c <= '\U{200A}' || c == '\U{202F}' || c == '\U{205F}' || c == '\U{3000}'
    || c == '\n' || c == '\r' || c == '\U{2028}' || c == '\U{2029}'
  }

  predicate AllWhitespace(s: string)
  {
    forall i :: 0 <= i < |s| ==> IsWhitespace(s[i])
  }

  /** The first index at or after `i` that does not hold whitespace, or
      `|s|` when there is none. */
  function SkipStart(s: string, i: nat): (j: nat)
    requires i <= |s|
    ensures i <= j <= |s|
    ensures forall k :: i <= k < j ==> IsWhitespace(s[k])
    ensures j < |s| ==> !IsWhitespace(s[j])
    decreases |s| - i
  {
    if i < |s| && IsWhitespace(s[i]) then SkipStart(s, i + 1) else i
  }

  /** The end of `s[i..j]` once its trailing whitespace is dropped. */
  function SkipEnd(s: string, i: nat, j: nat): (m: nat)
    requires i <= j <= |s|
    ensures i <= m <= j
    ensures forall k :: m <= k < j ==> IsWhitespace(s[k])
    ensures m > i ==> !IsWhitespace(s[m - 1])
    decreases j - i
  {
    if j > i && IsWhitespace(s[j - 1]) then SkipEnd(s, i, j - 1) else j
  }

  /** JavaScript's `s.trim()`: the slice of `s` left once whitespace is
      dropped from both ends. `TrimUnique` characterises it without
      reference to how it is computed. */
  function Trim(s: string): (r: string)
    ensures |r| <= |s|
    ensures |r| > 0 ==> !IsWhitespace(r[0]) && !IsWhitespace(r[|r| - 1])
    ensures r == [] <==> AllWhitespace(s)
  {
    var i := SkipStart(s, 0);
    var j := SkipEnd(s, i, |s|);
    assert j == i ==> i == |s|;
    assert j > i ==> s[i..j][0] == s[i] && s[i..j][j - i - 1] == s[j - 1];
    s[i..j]
  }

  /** `SkipStart` stops at the first non-whitespace index. */
  lemma {:induction false} SkipStartAt(s: string, i: nat, p: nat)
    requires i <= p <= |s|
    requires forall k :: i <= k < p ==> IsWhitespace(s[k])
    requires p < |s| ==> !IsWhitespace(s[p])
    ensures SkipStart(s, i) == p
    decreases p - i
  {
    if i < p {
      assert IsWhitespace(s[i]);
      SkipStartAt(s, i + 1, p);
    }
  }

  /** `SkipEnd` stops just after the last non-whitespace index. */
  lemma {:induction false} SkipEndAt(s: string, i: nat, j: nat, p: nat)
    requires i <= p <= j <= |s|
    requires forall k :: p <= k < j ==> IsWhitespace(s[k])
    requires p > i ==> !IsWhitespace(s[p - 1])
    ensures SkipEnd(s, i, j) == p
    decreases j - i
  {
    if p < j {
      assert IsWhitespace(s[j - 1]);
      SkipEndAt(s, i, j - 1, p);
    }
  }

  /** Trim is determined by its meaning: whitespace, then a core that
      neither starts nor ends with whitespace (or is empty), then
      whitespace, trims to exactly that core. */
  lemma TrimUnique(a: string, core: string, b: string)
    requires AllWhitespace(a) && AllWhitespace(b)
    requires |core| > 0 ==> !IsWhitespace(core[0]) && !IsWhitespace(core[|core| - 1])
    ensures Trim(a + core + b) == core
  {
    var s := a + core + b;
    if |core| == 0 {
      assert forall k :: 0 <= k < |s| ==> s[k] == (if k < |a| then a[k] else b[k - |a|]);
      assert AllWhitespace(s);
    } else {
      assert forall k :: 0 <= k < |a| ==> s[k] == a[k];
      assert s[|a|] == core[0];
      SkipStartAt(s, 0, |a|);
      var e := |a| + |core|;
      assert forall k :: e <= k < |s| ==> s[k] == b[k - e];
      assert s[e - 1] == core[|core| - 1];
      SkipEndAt(s, |a|, |s|, e);
      assert s[|a|..e] == core;
    }
  }

  /** Trimming twice is trimming once. */
  lemma TrimIdempotent(s: string)
    ensures Trim(Trim(s)) == Trim(s)
  {
    var r := Trim(s);
    assert [] + r + [] == r;
    TrimUnique([], r, []);
  }
}

=== FILE: wrappers.dfy ===
/** The optional-value datatype shared by every module of the model. A `None`
    stands for JavaScript's `null` / `undefined`. */
module Wrappers {

  datatype Option<+T> = None | Some(value: T) {

    /** Returns the wrapped value, or `default` for `None`. */
    function GetOr(default: T): T {
      match this
      case Some(v) => v
      case None => default
    }
  }
}
